=== FILE: README.md ===
# Boa API client — a Dafny model

This project models the client side of the Python library for the Boa
mining infrastructure's XML-RPC API:

- **Session transport.** `CookiesTransport` keeps every cookie the
  endpoint sets and every CSRF token the client hands it. It replays both,
  as a `Cookie` and an `X-CSRF-Token` header, on each request sent while
  at least one cookie is held. The
  transport appears twice in the library, in `boaapi/util.py` and in the
  older `api/util.py`. The model defines it once, as pure functions in
  module `Transport`. Module `ApiUtil` restates the older copy as
  imperative methods with loops and proves each method equal to the pure
  definition. It also proves that a whole session of calls ends in the
  same state and emits the same headers in both copies.
- **Job records and handles.** `parse_job` turns the endpoint's job
  record into a `JobHandle` (module `Util`). The handle's `__str__`,
  `refresh` and delegating methods are in module `JobHandles`.
- **The client.** `BoaClient` is a small state machine: a logged-in flag
  plus the transport. Every operation is a pure function from the client,
  its arguments and the endpoint to a `Step`. A step holds the client
  afterwards, the outcome (a value or a Python exception), and the
  requests that went out. `sent == []` therefore means "no remote call".
  The endpoint is an oracle, a function from a request (the XML-RPC
  method name, its parameters and the headers the transport added) to a
  reply. A reply is an HTTP failure or an answer. An answer carries
  `Set-Cookie` headers and either a returned value or a fault.

Python values that cross the wire are the datatype `Values.Value`: None,
bool, int, str, list, dict, and the two status enums of
`boaapi/status.py`. Subscripting, `.get`, indexing, iteration, `int()` and
`==` follow Python's rules, and each error is a constructor of
`Exceptions.Error`; `Wrappers.Option` stands for a value or None. Python's `True == 1` holds in `Values.PyEq`, and an
enum member equals only itself. A dict is the list of its entries in wire
order, and the last entry with a key wins, as in the XML-RPC unmarshaller.

Two behaviours of the code are kept exactly as written:
- `parse_job` stores the raw status strings, while `_output`,
  `_output_size` and `_output_hash` compare with the enum member
  `ExecutionStatus.FINISHED`. On a logged-in client, for a handle parsed
  from any decoded record, all three therefore raise "Job is currently
  running" without calling out (`BoaClient.ParsedJobNeverFinished`); on a
  logged-out client the login guard raises first.
- Each delegating method of `JobHandle` calls `self.client.stop(self)`
  and so on, but the client spells these methods `_stop` and so on. Each
  therefore raises `AttributeError` (`BoaClient.ForwardingFails`).

`boaapi/boa_client.py` imports `BoaException` from `boaapi/util.py`, which
does not define it, so as written that import raises ImportError and the
module cannot be loaded. The model takes `BoaException` to be an exception
that carries a message and an optional cause (`Exceptions.Error.Boa`).

The client's `ServerProxy` is built without `allow_none`. Module `Marshal`
states which arguments the XML-RPC encoder refuses: a call with such an
argument raises before anything is sent.

## Model

| member | source | states |
|---|---|---|
| Transport.AddCsrf | boaapi/util.py:31-32 | `add_csrf` puts the token at the end of the CSRF list, keeps every earlier token in place and leaves the cookie list alone |
| Transport.SendHeaders | boaapi/util.py:34-38 | with no cookie held the outgoing headers are exactly the standard ones, CSRF tokens or not; otherwise a `Cookie` header with the cookies `"; "`-joined and an `X-CSRF-Token` header with the tokens `"; "`-joined come first, followed by the standard headers unchanged |
| Transport.CookiePart | boaapi/util.py:44 | the kept part of a `Set-Cookie` value is its prefix up to the first `;`, has no `;`, and is the whole value when the value has none |
| Transport.ValuesOf | boaapi/util.py:41 | the `Set-Cookie` lookup finds nothing exactly when no header has that name (names compared case-insensitively), and finds at most one value per header |
| Transport.ValuesOfSingle | boaapi/util.py:41 | a lone header contributes its value exactly when its name matches |
| Transport.ValuesOfAppend | boaapi/util.py:41-43 | the values found in two runs of headers are those of the first run followed by those of the second, so with `ValuesOfSingle` the lookup is every matching header's value, once each, in arrival order |
| Transport.ParseResponseAppends | boaapi/util.py:40-45 | `parse_response` keeps every held cookie in place, appends one cookie per `Set-Cookie` header in header order (the part before the first `;`), never touches the CSRF list, changes nothing when there is no such header, and never stores a cookie containing `;` |
| Transport.FindSeparator | boaapi/util.py:36 | the first position from the start point at which the `"; "` separator sits, or the end of the string |
| Transport.JoinSplitRoundTrip | boaapi/util.py:36 | the `Cookie` header value splits back at `"; "` into exactly the held cookies, in receipt order |
| Transport.ReplayAccumulates | boaapi/util.py:26-45 | starting from a fresh transport (both lists empty), any sequence of `add_csrf`, `send_headers` and `parse_response` calls leaves the cookies of all replies in receipt order and the tokens in call order, and no cookie contains `;` |
| Transport.NextRequestCarriesSession | boaapi/util.py:34-38 | after any session, the next request carries no session headers while no cookie has been received; otherwise a `Cookie` header that splits back into every received cookie and an `X-CSRF-Token` header joining every token, then the standard headers |
| Transport.FreshSendsNothing | boaapi/util.py:26-29 | a fresh transport adds no header to a request |
| Transport.TokensWithoutCookiesStaySilent | boaapi/util.py:35 | CSRF tokens alone never produce a header: while no cookie is held, adding tokens does not change the outgoing headers |
| ApiUtil.AddCsrf | api/util.py:12-13 | the older `add_csrf` gives the same transport as the pure definition |
| ApiUtil.SendHeaders | api/util.py:15-19 | the older `send_headers` writes exactly the pure definition's headers onto the connection after what it already held |
| ApiUtil.ParseResponse | api/util.py:21-27 | the older `parse_response` loop appends the same cookies as the pure definition |
| ApiUtil.Run | api/util.py:4-27 | a whole session run through the older transport's methods ends in the same cookie and CSRF lists and emits the same headers as the same session through the pure model |
| ApiUtil.ParseJob | api/util.py:29-30 | the older `parse_job`, subscripting the keys one at a time, gives the same handle or the same error as the pure definition |
| Util.ParseJobSpec | boaapi/util.py:48-49 | `parse_job` succeeds exactly when the record is a dict holding all five keys; the handle then takes `id`, `submitted`, `input`, `compiler_status` and `hadoop_status` as its id, date, dataset, compiler status and execution status, and refers to the given client; a non-dict raises TypeError, and a dict missing a key raises KeyError for the first missing key in that order |
| Values.Lookup | boaapi/util.py:49 | a dict lookup finds a value exactly when some entry has the key, and the value found is that of the last such entry |
| Values.Subscript | boaapi/util.py:49 | `job[key]` succeeds exactly on a dict holding the key; a dict without it raises KeyError, anything else TypeError |
| Values.Get | boaapi/boa_client.py:196 | `dataset.get('id')` gives the value under the key or None on a dict, and raises AttributeError on anything else |
| Values.Index | boaapi/boa_client.py:195 | `xs[n]` on a list or string gives the n-th element or raises IndexError; a dict raises KeyError for the int key; None, ints, bools and enum members raise TypeError |
| Values.Iterate | boaapi/boa_client.py:117 | `for x in v` runs over a list's items, a string's one-character strings in order, or a dict's distinct keys as strings, and raises TypeError on anything else |
| Values.Keys | boaapi/boa_client.py:137 | iterating a dict yields each of its keys once, and only those |
| Values.IntOf | boaapi/boa_client.py:432 | `int(v)` keeps an int and maps a bool to 0 or 1; a string parses exactly when it is decimal digits after at most one `+` or `-`, to the signed decimal value, and any other string raises ValueError; anything else raises TypeError |
| Values.DecimalRoundTrip | boaapi/boa_client.py:432 | `int()` reads back the decimal rendering of every natural number |
| Values.PyEqStrings | boaapi/boa_client.py:138 | two strings are `==` exactly when they are the same string |
| Values.PyEqOne | boaapi/boa_client.py:326 | a value is `== 1` exactly when it is the int 1 or True |
| Values.PyEqExecution | boaapi/boa_client.py:401 | a value is `==` an execution-status member exactly when it is that member |
| JobHandles.DescribeLayout | boaapi/job_handle.py:40-42 | `str(handle)` is the twelve pieces `id: `, id, `, date:`, date, `, dataset:`, dataset, `, compiler_status: (`, status, `)`, `, execution_status: (`, status, `)` laid end to end: each piece sits right after the ones before it, and the length is 64 plus the lengths of the five rendered fields |
| JobHandles.ConcatAt | boaapi/job_handle.py:40-42 | in a concatenation, each piece sits right after the pieces before it |
| JobHandles.RefreshWith | boaapi/job_handle.py:91-93 | `refresh` takes the fetched job's compiler status, execution status and date, and keeps its own id, dataset and client |
| JobHandles.RefreshIdempotent | boaapi/job_handle.py:88-93 | refreshing twice from the same fetched job gives the same handle as refreshing once |
| JobHandles.Forward | boaapi/job_handle.py:44-86 | each delegating method passes the handle itself, plus the status for `set_public` and nothing for the others, to the client attribute named as written (`stop`, `get_url`, …) |
| BoaClient.NewClientIsAnonymous | boaapi/boa_client.py:43-45 | a new client is logged out, holds no cookie or token, and sends its first request without session headers |
| Marshal.FirstFault | boaapi/boa_client.py:45 | the first failing check in order, or none exactly when every check passes |
| Marshal.MarshalFault | boaapi/boa_client.py:45 | with a proxy built without `allow_none`, encoding None raises TypeError and an int outside the signed 32-bit range OverflowError; bools and strings encode; a list raises the error of its first element that fails and nothing exactly when every element encodes; a dict likewise over the values of its winning entries, in entry order; nothing else is raised |
| Marshal.ParamsFault | boaapi/boa_client.py:45 | encoding a call's arguments raises the error of the first argument that cannot be encoded, and nothing exactly when all can |
| Marshal.MarshalFaultIffNotEncodable | boaapi/boa_client.py:45 | encoding a value raises nothing exactly when it holds no None and no out-of-range int at any depth |
| BoaClient.Remote | boaapi/util.py:34-46 | one call through the transport: arguments the marshaller refuses raise before anything is sent; otherwise exactly one request goes out with the session headers; on an HTTP 200 reply the transport becomes `parse_response` of the reply's headers, whether the body is a value or a fault, and the value or the fault comes back; another status raises ProtocolError and changes nothing |
| BoaClient.Wrap | boaapi/boa_client.py:101-102 | a raw XML-RPC fault becomes a BoaException caused by that fault; every other outcome passes through unchanged |
| BoaClient.Call | boaapi/boa_client.py:86-87 | a guarded single call: a logged-out client raises NotLoggedInException, sending nothing and changing nothing; for a logged-in one the requests, the client afterwards (reply cookies harvested) and the outcome (value, BoaException caused by the fault, ProtocolError, or the encoding error) are exactly those the reply determines |
| BoaClient.Login | boaapi/boa_client.py:54-62 | `login` sets the flag before the call, so the client is logged in afterwards whatever happened; the reply's cookies are harvested; a reply with a string `token` is returned and the token appended to the CSRF list; a reply without `token` raises KeyError (TypeError if not a dict), a fault a BoaException caused by it, a non-200 status ProtocolError, all with the CSRF list unchanged |
| BoaClient.LoginSessionReachesNextRequest | boaapi/boa_client.py:54-58 | after a login answered with status 200 and a string token, the next request carries the earlier cookies followed by the reply's `Set-Cookie` values cut at `;`, and the CSRF tokens with the new one last; with no cookie at all it carries no session header |
| BoaClient.Close | boaapi/boa_client.py:64-75 | `close` refuses a logged-out client; otherwise it sends the `user.logout` request; a returned reply gives None and a logged-out client, while a fault (as a BoaException), a non-200 status or an encoding error leaves the client logged in; the reply's cookies are harvested either way |
| BoaClient.Datasets | boaapi/boa_client.py:89-102 | `datasets` is guarded and returns the endpoint's reply to `boa.datasets`, a fault becoming a BoaException |
| BoaClient.Names | boaapi/boa_client.py:117-118 | the names list has one entry per dataset record, in order, each that record's `name`; otherwise the error is that of the first record without one |
| BoaClient.DatasetNames | boaapi/boa_client.py:104-121 | `dataset_names` is guarded, sends only the `boa.datasets` request, and for an iterable reply returns exactly `Names` of its items (the names in order, as many as datasets, or the first record's error); a failed call's error passes through and a non-iterable reply raises TypeError |
| BoaClient.FirstNamed | boaapi/boa_client.py:137-140 | the dataset found is the first whose `name` equals the argument, every earlier one having another name; None means no dataset has that name; an error is that of the first record without a name, all earlier ones named otherwise |
| BoaClient.GetDataset | boaapi/boa_client.py:123-142 | `get_dataset` is guarded, sends only the `boa.datasets` request, and returns the first dataset with the given name or None |
| BoaClient.JobCount | boaapi/boa_client.py:160-177 | `job_count` is guarded and returns the reply to `boa.count` with the flag passed as given |
| BoaClient.ParseReply | boaapi/boa_client.py:196 | a returned record is parsed into a handle of this client; an earlier error passes through |
| BoaClient.DatasetId | boaapi/boa_client.py:194-196 | with a dataset given, its `id` is read without any call; with none, `boa.datasets` is called and the first dataset's `id` is used, an empty list raising IndexError |
| BoaClient.Query | boaapi/boa_client.py:179-198 | `query` is guarded; when the id lookup raises, its error, requests and client (with any cookies the `boa.datasets` reply set) come out; otherwise it submits the query with the chosen dataset id in one `boa.submit` call after whatever the lookup sent, the client afterwards is the one that call leaves (the `boa.submit` reply's cookies harvested on top of the lookup's), and the parsed handle is returned |
| BoaClient.GetJob | boaapi/boa_client.py:200-216 | `get_job` is guarded, sends one `boa.job` request for that id, and returns the parsed handle |
| BoaClient.ParseAll | boaapi/boa_client.py:238-240 | `job_list` makes one handle per record, in the endpoint's order; otherwise the error is that of the first record that does not parse |
| BoaClient.JobList | boaapi/boa_client.py:218-243 | `job_list` is guarded, sends one `boa.range` request with the three arguments as given, and returns one handle per record in order |
| BoaClient.LastJob | boaapi/boa_client.py:144-158 | `last_job` is the first handle of `job_list(False, 0, 1)`, and raises IndexError when that list is empty |
| BoaClient.Command | boaapi/boa_client.py:259-263 | a per-job command is guarded; it sends exactly its request and returns None for a returned reply, a BoaException caused by a fault, ProtocolError for a non-200 status, or the encoding error, with the reply's cookies harvested |
| BoaClient.StopJob | boaapi/boa_client.py:250-263 | `_stop` is guarded and is the command `job.stop` with the job's id, with the outcomes of `Command` |
| BoaClient.ResubmitJob | boaapi/boa_client.py:265-278 | `_resubmit` is guarded and is the command `job.resubmit` with the job's id, with the outcomes of `Command` |
| BoaClient.DeleteJob | boaapi/boa_client.py:280-293 | `_delete` is guarded and is the command `job.delete` with the job's id, with the outcomes of `Command` |
| BoaClient.PublicFlag | boaapi/boa_client.py:307-310 | the flag sent is 1 exactly when the argument is the value True itself, and 0 otherwise, truthy values included |
| BoaClient.SetPublic | boaapi/boa_client.py:295-312 | `_set_public` is guarded and is the command `job.setpublic` with the job's id and that flag, with the outcomes of `Command` |
| BoaClient.PublicStatus | boaapi/boa_client.py:314-331 | `_public_status` is guarded, sends one `job.public` request, and returns True exactly when the reply is the int 1 or True |
| BoaClient.GetUrl | boaapi/boa_client.py:333-346 | `_get_url` is guarded and returns the reply to `job.url` for the job's id |
| BoaClient.PublicUrl | boaapi/boa_client.py:348-361 | `_public_url` is guarded and returns the reply to `job.publicurl` for the job's id |
| BoaClient.CompilerErrors | boaapi/boa_client.py:363-376 | `_get_compiler_errors` is guarded and returns the reply to `job.compilerErrors` for the job's id |
| BoaClient.Source | boaapi/boa_client.py:378-391 | `_source` is guarded and returns the reply to `job.source` for the job's id |
| BoaClient.Output | boaapi/boa_client.py:393-405 | `_output` is guarded; unless the execution status is the member FINISHED it raises "Job is currently running" without any call; otherwise it asks `job.output` for the URL and returns the downloaded bytes or the download's failure |
| BoaClient.OutputSize | boaapi/boa_client.py:407-419 | `_output_size` has the same two guards, then returns the reply to `job.outputsize` |
| BoaClient.OutputHash | boaapi/boa_client.py:421-434 | `_output_hash` has the same two guards, then calls `job.outputhash`; for a returned reply `res` the result is the first error of `res[0]`, `int(res[0])`, `res[1]` in that order, or else the pair of `int(res[0])` and the rendering of `res[1]` |
| BoaClient.Refresh | boaapi/job_handle.py:88-93 | `refresh` fetches the job by the handle's own id through its client (guarded, one `boa.job` request); the client afterwards is the one `get_job` leaves, with the `boa.job` reply's cookies harvested; it gives the handle updated from the fetched job, and an exception leaves no new handle |
| BoaClient.Lift | boaapi/job_handle.py:44-86 | packing an operation's outcome keeps its client, its requests and its error |
| BoaClient.Invoke | boaapi/job_handle.py:44-86 | a handle's call on its client: an attribute the client lacks (other than the `__x__` attributes every object has) raises AttributeError before anything runs; a job operation with the wrong number of arguments raises TypeError; otherwise it is exactly the client operation of that name applied to the handle |
| BoaClient.ForwardingFails | boaapi/job_handle.py:46 | every delegating method names an attribute the client lacks (the client's method has a leading underscore), so it raises AttributeError, sending nothing and changing nothing, logged in or not |
| BoaClient.ParsedJobNeverFinished | boaapi/boa_client.py:401-403 | on a logged-in client, a handle parsed from any decoded record never passes the FINISHED guard: output, output size and output hash all raise "Job is currently running" without a call |
| BoaClient.RefreshTwice | boaapi/job_handle.py:88-93 | with an endpoint that answers the same call the same way, a second refresh gives the same handle as the first |
| BoaClient.EveryOperationGuarded | boaapi/boa_client.py:77-87 | every operation but `login` raises NotLoggedInException on a logged-out client, sending nothing and changing nothing |
| Scenarios.LoginCarriesSession | boaapi/boa_client.py:54-58 | after a login whose reply sets cookie `sid=abc` and token `T1`, the client is logged in and its next request carries `Cookie: sid=abc` and `X-CSRF-Token: T1` |
| Scenarios.QueryUsesFirstDataset | boaapi/boa_client.py:194-196 | a query without a dataset first lists the datasets, then submits with the first dataset's id |
| Scenarios.NestedNoneIsTypeError | boaapi/boa_client.py:45 | a None inside a list or dict argument raises TypeError, like a bare None, even after an element that encodes |
| Scenarios.QueryWithoutIdSendsNothing | boaapi/boa_client.py:196 | `query(q, {'name': 'ds'})` reads None as the dataset id and raises TypeError while encoding the submission, sending nothing and leaving the client unchanged |

## Left out

- `fetch_url` (boaapi/util.py:51-58) opens a live HTTP connection and follows redirects. The model takes it as a parameter of `BoaClient.Output`: a function from the URL value to the downloaded bytes or a failure.
- XML-RPC encoding is modelled only as far as the errors it raises (module `Marshal`); the wire format, `ServerProxy` dispatch and the network are not modelled. The endpoint is an oracle, a function from the request to the reply.
- Marshal.MarshalFault: enum members and other objects passed as arguments are treated as encodable; the real marshaller encodes such an instance as a struct of its attributes, which depends on the Python version. A dict's values are checked in the order of their winning entries rather than first insertion, which only matters for which of two errors is raised.
- The `ExpatError` translation at login (boaapi/boa_client.py:59-60) depends on the behaviour of a foreign XML parser.
- The `.decode('utf-8')` of the downloaded output (boaapi/boa_client.py:403) is not modelled. `BoaClient.Output` returns the bytes.
- Python's `str()` of ids, dates, dicts and enums is not modelled. `__str__` and `_output_hash` take the rendering as a function parameter.
- Floats, `Binary`, `DateTime` and other XML-RPC value types are not part of `Values.Value`.
- Values.IntOf: does not accept the surrounding whitespace, the underscores or the non-ASCII decimal digits that Python's `int()` accepts in strings.
- Transport.SameName: folds ASCII letters only, while HTTP header lookup in Python folds case in full Unicode.
- Values.Keys: the contract states that every key appears once, not that the keys come in first-insertion order (the definition does keep that order).
- The enums of `boaapi/status.py` are plain datatypes. They have no behaviour of their own.
- `setup.py` is packaging metadata only.
- The defaults of `job_count(pub_only=False)`, `job_list(pub_only=False, offset=0, length=1000)` and `query(dataset=None)` are not modelled. The caller passes every argument.
- BoaClient.Remote: the model does not reproduce `http.client`'s header checks. Python encodes each header value as Latin-1 and rejects one containing a line break, so after a login whose string token lies outside Latin-1 or holds a CR or LF, every request sent while a cookie is held raises UnicodeEncodeError or ValueError before anything goes out; the model sends such a request.
- BoaClient.Login: when the reply's `token` is not a string, the model raises TypeError at login. In Python the token is appended anyway; a TypeError comes only later, from `"; ".join` in the first request sent while a cookie is held, and never while no cookie is held.
- BoaClient.Invoke: requires the attribute to be a job operation, or absent from the client and not of the `__x__` form. A handle that reaches one of the client's other methods is not modelled, because no delegating method names one. Neither are the `__x__` attributes (`__eq__`, `__str__`, `__init__`, …) that every Python object inherits: `client.__eq__(handle)`, for one, returns NotImplemented instead of raising, and no delegating method names such an attribute either.
- BoaClient.Refresh: the model returns the refreshed handle instead of updating the handle in place.

=== FILE: api_util.dfy ===
/**
 * The older copy of the transport and of `parse_job` in api/util.py,
 * written the way the Python statements run (a list grown by appends, a
 * header buffer the connection fills, the record read key by key) and
 * proved to behave exactly like the boaapi/util.py model.
 */
module ApiUtil {
  import opened Exceptions
  import opened Values
  import opened JobHandles
  import Transport
  import Util

  /** `add_csrf(token)`: one append to the CSRF list. */
  method AddCsrf(t: Transport.State, token: string) returns (r: Transport.State)
    ensures r == Transport.AddCsrf(t, token)
  {
    var csrf := t.csrf;
    csrf := csrf + [token];
    r := Transport.State(t.cookies, csrf);
  }

  /**
   * `send_headers(connection, headers)`: the lines this transport puts on
   * the connection, followed by the standard ones its base class puts.
   */
  method SendHeaders(t: Transport.State, connection: seq<Transport.Header>, headers: seq<Transport.Header>)
    returns (sent: seq<Transport.Header>)
    ensures sent == connection + Transport.SendHeaders(t, headers)
  {
    sent := connection;
    if |t.cookies| > 0 {
      sent := sent + [Transport.Header("Cookie", Transport.Join(t.cookies, "; "))];
      sent := sent + [Transport.Header("X-CSRF-Token", Transport.Join(t.csrf, "; "))];
    }
    sent := sent + headers;
  }

  /** `parse_response`: one append per `Set-Cookie` header, in order. */
  method ParseResponse(t: Transport.State, headers: seq<Transport.Header>) returns (r: Transport.State)
    ensures r == Transport.ParseResponse(t, headers)
  {
    r := t;
    var sessionMessage := Transport.GetAll(headers, "Set-Cookie");
    if sessionMessage.Some? {
      var all := sessionMessage.value;
      var cookies := t.cookies;
      for i := 0 to |all|
        invariant cookies == t.cookies + Transport.CookieParts(all[..i])
      {
        var cookie := Transport.CookiePart(all[i]);
        assert Transport.CookieParts(all[..i + 1]) == Transport.CookieParts(all[..i]) + [cookie];
        cookies := cookies + [cookie];
      }
      assert all[..|all|] == all;
      r := Transport.State(cookies, t.csrf);
    }
  }

  /**
   * A fresh transport driven through a sequence of events by the
   * methods above ends in the same cookie and CSRF lists, and emits the
   * same headers on every send, as the boaapi/util.py transport.
   */
  method Run(events: seq<Transport.Event>) returns (s: Transport.Session)
    ensures s == Transport.Replay(Transport.Session(Transport.New(), []), events)
  {
    ghost var start := Transport.Session(Transport.New(), []);
    var t := Transport.State([], []);
    var emitted: seq<seq<Transport.Header>> := [];
    for i := 0 to |events|
      invariant Transport.Session(t, emitted) == Transport.Replay(start, events[..i])
    {
      assert events[..i + 1][..i] == events[..i];
      assert Transport.Replay(start, events[..i + 1])
          == Transport.Apply(Transport.Replay(start, events[..i]), events[i]);
      match events[i]
      case AddToken(token) =>
        t := AddCsrf(t, token);
      case Send(headers) =>
        var sent := SendHeaders(t, [], headers);
        assert sent == Transport.SendHeaders(t, headers);
        emitted := emitted + [sent];
      case Receive(headers) =>
        t := ParseResponse(t, headers);
    }
    assert events[..|events|] == events;
    s := Transport.Session(t, emitted);
  }

  /**
   * `parse_job(client, job)`: the record is read key by key in argument
   * order; the first failing read raises, otherwise the handle is built.
   * The outcome is the boaapi/util.py one for every record.
   */
  method ParseJob(client: ClientRef, job: Value) returns (r: Result<JobHandle>)
    ensures r == Util.ParseJob(client, job)
  {
    var fields: seq<Value> := [];
    for i := 0 to |Util.JobKeys|
      invariant |fields| == i
      invariant forall j :: 0 <= j < i ==> Subscript(job, Util.JobKeys[j]) == Ok(fields[j])
    {
      var v := Subscript(job, Util.JobKeys[i]);
      if v.Err? {
        Util.ParseJobSpec(client, job);
        if job.Dict? {
          assert Util.FirstMissing(job, i);
        }
        return Err(v.error);
      }
      fields := fields + [v.value];
    }
    Util.ParseJobSpec(client, job);
    r := Ok(JobHandle(client, fields[0], fields[1], fields[2], fields[3], fields[4]));
  }
}

=== FILE: boa_client.dfy ===
/**
 * `BoaClient` of boaapi/boa_client.py: a logged-in flag and a session
 * transport, and one function per client operation. Each remote call is
 * answered by an oracle `Server`; each operation returns the client's
 * new state, its result or the exception it raised, and the requests it
 * sent, in order.
 */
module BoaClient {
  import opened Wrappers
  import opened Exceptions
  import opened Values
  import opened JobHandles
  import Status
  import Transport
  import Util
  import Marshal

  /** An XML-RPC call: the dotted method name as the client spells it, and its arguments. */
  datatype Rpc = Rpc(name: string, params: seq<Value>)

  /** What goes over the wire: the call and the headers the session transport adds. */
  datatype Request = Request(call: Rpc, headers: seq<Transport.Header>)

  /** A decoded XML-RPC answer: a return value or a fault. */
  datatype Body = Returned(value: Value) | Faulted(fault: Fault)

  /** The endpoint's HTTP answer: status 200 with headers and a body, or another status. */
  datatype Reply = Answer(headers: seq<Transport.Header>, body: Body) | HttpFailure(status: int)

  /** The remote endpoint, as an oracle from request to reply. */
  type Server = Request -> Reply

  type Bytes = seq<bv8>

  /** What downloading a job's output URL produced. */
  datatype Download = Downloaded(bytes: Bytes) | DownloadFailed(reason: string)

  /** The output download (`fetch_url`), as an oracle from the URL value to its outcome. */
  type Fetcher = Value -> Download

  /**
   * The client object: its own identity (which the handles it makes
   * refer back to), its transport and its logged-in flag.
   */
  datatype Client = Client(self: ClientRef, trans: Transport.State, loggedIn: bool)

  /** One operation: the client afterwards, the outcome, the requests sent. */
  datatype Step<T> = Step(client: Client, result: Result<T>, sent: seq<Request>)

  const NotLoggedInMessage := "User not currently logged in"
  const RunningMessage := "Job is currently running"

  /** `BoaClient(endpoint)`: a fresh transport and no session. */
  function New(self: ClientRef): (c: Client)
  {
    Client(self, Transport.New(), false)
  }

  /**
   * A new client is logged out and its first request carries no session
   * headers, whatever the call.
   */
  lemma NewClientIsAnonymous(self: ClientRef, call: Rpc)
    ensures !New(self).loggedIn
    ensures New(self).trans.cookies == [] && New(self).trans.csrf == []
    ensures RequestFor(New(self), call) == Request(call, [])
  {
  }

  /** `ensure_logged_in` failing: NotLoggedInException, nothing sent, nothing changed. */
  function Refused<T>(c: Client): Step<T>
  {
    Step(c, Err(NotLoggedIn(NotLoggedInMessage)), [])
  }

  /** The request a call goes out as from client `c`. */
  function RequestFor(c: Client, call: Rpc): Request
  {
    Request(call, Transport.SendHeaders(c.trans, []))
  }

  /** Client `c` after harvesting the cookies of a 200 reply with these headers. */
  function Harvested(c: Client, headers: seq<Transport.Header>): Client
  {
    c.(trans := Transport.ParseResponse(c.trans, headers))
  }

  /**
   * The requests a call sends: none when its arguments cannot be
   * encoded, otherwise the one request carrying the session headers.
   */
  function Requests(c: Client, call: Rpc): seq<Request>
  {
    if Marshal.ParamsFault(call.params).Some? then [] else [RequestFor(c, call)]
  }

  /** The client after one call, read off the endpoint's reply. */
  function After(c: Client, call: Rpc, server: Server): Client
  {
    if Marshal.ParamsFault(call.params).Some? then c
    else
      match server(RequestFor(c, call))
      case HttpFailure(_) => c
      case Answer(headers, _) => Harvested(c, headers)
  }

  /**
   * The outcome of one call as the client reports it, read off the
   * endpoint's reply: the encoding error, the ProtocolError of a non-200
   * status, the returned value, or a BoaException caused by the fault.
   */
  function Outcome(c: Client, call: Rpc, server: Server): Result<Value>
  {
    match Marshal.ParamsFault(call.params)
    case Some(e) => Err(e)
    case None =>
      match server(RequestFor(c, call))
      case HttpFailure(status) => Err(ProtocolError(status))
      case Answer(_, Returned(v)) => Ok(v)
      case Answer(_, Faulted(f)) => Err(Boa("", Some(f)))
  }

  /**
   * One call through the session transport. Arguments the marshaller
   * refuses raise before anything is sent. Otherwise the request carries
   * the session headers; a 200 reply's cookies are harvested whether its
   * body is a value or a fault; another status raises ProtocolError
   * without touching the transport.
   */
  function Remote(c: Client, call: Rpc, server: Server): (s: Step<Value>)
    ensures s.sent == Requests(c, call)
    ensures s.client == After(c, call, server)
    ensures Marshal.ParamsFault(call.params).Some? ==> s.result == Err(Marshal.ParamsFault(call.params).value)
    ensures Marshal.ParamsFault(call.params).None? ==>
      match server(RequestFor(c, call))
      case HttpFailure(status) => s.result == Err(ProtocolError(status))
      case Answer(_, Returned(v)) => s.result == Ok(v)
      case Answer(_, Faulted(f)) => s.result == Err(RawFault(f))
    ensures s.client.self == c.self && s.client.loggedIn == c.loggedIn
    ensures s.client.trans.csrf == c.trans.csrf
    ensures |c.trans.cookies| <= |s.client.trans.cookies|
    ensures s.client.trans.cookies[..|c.trans.cookies|] == c.trans.cookies
    ensures Transport.Clean(c.trans.cookies) ==> Transport.Clean(s.client.trans.cookies)
  {
    match Marshal.ParamsFault(call.params)
    case Some(e) => Step(c, Err(e), [])
    case None =>
      var request := RequestFor(c, call);
      match server(request)
      case HttpFailure(status) => Step(c, Err(ProtocolError(status)), [request])
      case Answer(headers, body) =>
        Transport.ParseResponseAppends(c.trans, headers);
        var after := Harvested(c, headers);
        match body
        case Returned(v) => Step(after, Ok(v), [request])
        case Faulted(f) => Step(after, Err(RawFault(f)), [request])
  }

  /** The client's fault handler: an XML-RPC fault is re-raised as a BoaException caused by it. */
  function Wrap<T>(s: Step<T>): (w: Step<T>)
    ensures w.client == s.client && w.sent == s.sent
    ensures s.result.Err? && s.result.error.RawFault? ==> w.result == Err(Boa("", Some(s.result.error.fault)))
    ensures !(s.result.Err? && s.result.error.RawFault?) ==> w.result == s.result
  {
    if s.result.Err? && s.result.error.RawFault? then s.(result := Err(Boa("", Some(s.result.error.fault))))
    else s
  }

  /** No raw XML-RPC fault escapes: faults surface as BoaException. */
  predicate NoRawFault<T>(s: Step<T>)
  {
    s.result.Err? ==> !s.result.error.RawFault?
  }

  /** A guarded operation on a logged-out client raises before sending anything. */
  predicate Guarded<T(==)>(c: Client, s: Step<T>)
  {
    !c.loggedIn ==> s == Refused(c)
  }

  /**
   * The session survives the operation: same identity and flag, the CSRF
   * list untouched, the held cookies kept in place as a prefix, and no
   * held cookie gains a ';'.
   */
  predicate Keeps<T>(c: Client, s: Step<T>)
  {
    && s.client.self == c.self
    && s.client.loggedIn == c.loggedIn
    && s.client.trans.csrf == c.trans.csrf
    && |c.trans.cookies| <= |s.client.trans.cookies|
    && s.client.trans.cookies[..|c.trans.cookies|] == c.trans.cookies
    && (Transport.Clean(c.trans.cookies) ==> Transport.Clean(s.client.trans.cookies))
  }

  /**
   * Step `s` is exactly the one wrapped call `call`: the requests it
   * sent, the client afterwards and the outcome are those the
   * endpoint's reply determines.
   */
  predicate Relays(c: Client, call: Rpc, server: Server, s: Step<Value>)
  {
    s == Step(After(c, call, server), Outcome(c, call, server), Requests(c, call))
  }

  /**
   * Step `s` is the wrapped call `call` of a method that returns None:
   * as `Relays`, except that a returned value becomes None.
   */
  predicate RelaysNone(c: Client, call: Rpc, server: Server, s: Step<Value>)
  {
    var o := Outcome(c, call, server);
    s == Step(After(c, call, server), if o.Ok? then Ok(Nil) else o, Requests(c, call))
  }

  /** A guarded operation that is one wrapped remote call. */
  function Call(c: Client, call: Rpc, server: Server): (s: Step<Value>)
    ensures Guarded(c, s) && NoRawFault(s) && Keeps(c, s)
    ensures c.loggedIn ==> Relays(c, call, server, s)
  {
    if !c.loggedIn then Refused(c) else Wrap(Remote(c, call, server))
  }

  /**
   * `login(username, password)`: the flag is set before the call, so it
   * stays set whatever the call does. On success the reply's "token" is
   * appended to the CSRF list and the reply is returned; a reply without
   * a string token raises.
   */
  function Login(c: Client, username: Value, password: Value, server: Server): (s: Step<Value>)
    ensures s.client.loggedIn && s.client.self == c.self
    ensures s.sent == Requests(c, Rpc("user.login", [username, password]))
    ensures NoRawFault(s)
    ensures var call := Rpc("user.login", [username, password]);
      var after := After(c, call, server).(loggedIn := true);
      var o := Outcome(c, call, server);
      && (o.Err? ==> s.result == o && s.client == after)
      && (o.Ok? && Subscript(o.value, "token").Err? ==>
            s.result == Err(Subscript(o.value, "token").error) && s.client == after)
      && (o.Ok? && Subscript(o.value, "token").Ok? && !Subscript(o.value, "token").value.Str? ==>
            s.result == Err(TypeError) && s.client == after)
      && (o.Ok? && Subscript(o.value, "token").Ok? && Subscript(o.value, "token").value.Str? ==>
            && s.result == o
            && s.client == after.(trans := Transport.AddCsrf(after.trans, Subscript(o.value, "token").value.s)))
  {
    var call := Rpc("user.login", [username, password]);
    var flagged := c.(loggedIn := true);
    assert RequestFor(flagged, call) == RequestFor(c, call);
    var s := Wrap(Remote(flagged, call, server));
    if s.result.Err? then s
    else
      match Subscript(s.result.value, "token")
      case Err(e) => s.(result := Err(e))
      case Ok(token) =>
        if token.Str? then
          s.(client := s.client.(trans := Transport.AddCsrf(s.client.trans, token.s)))
        else s.(result := Err(TypeError))
  }

  /**
   * A successful login reaches the wire: after a 200 reply with a string
   * token, the next request of any kind carries the cookies held before
   * followed by the reply's `Set-Cookie` values (each cut at its first
   * ';'), and the CSRF tokens with the new one last; with no cookie held
   * at all it carries no session header.
   */
  lemma LoginSessionReachesNextRequest(c: Client, username: Value, password: Value, server: Server,
                                       headers: seq<Transport.Header>, reply: Value, token: string, next: Rpc)
    requires Transport.Clean(c.trans.cookies)
    requires Marshal.ParamsFault([username, password]).None?
    requires server(RequestFor(c, Rpc("user.login", [username, password]))) == Answer(headers, Returned(reply))
    requires Subscript(reply, "token") == Ok(Str(token))
    ensures var s := Login(c, username, password, server);
      var cookies := c.trans.cookies + Transport.CookieParts(Transport.ValuesOf(headers, Transport.SetCookieHeader));
      var out := RequestFor(s.client, next).headers;
      && s.result == Ok(reply) && s.client.loggedIn
      && (|cookies| == 0 ==> out == [])
      && (|cookies| > 0 ==>
            && |out| == 2
            && Transport.SplitCookies(out[0].value) == cookies
            && out[1] == Transport.Header(Transport.CsrfHeader, Transport.Join(c.trans.csrf + [token], Transport.Separator)))
  {
    var s := Login(c, username, password, server);
    var harvested := Transport.ParseResponse(c.trans, headers);
    Transport.ParseResponseAppends(c.trans, headers);
    var cookies := c.trans.cookies + Transport.CookieParts(Transport.ValuesOf(headers, Transport.SetCookieHeader));
    assert harvested.cookies == cookies;
    assert s.client.trans == Transport.State(cookies, c.trans.csrf + [token]);
    if |cookies| > 0 {
      Transport.JoinSplitRoundTrip(cookies);
    }
  }

  /**
   * `close()`: refused when logged out; otherwise the flag is cleared
   * only once the logout call has returned, and stays set if it failed.
   */
  function Close(c: Client, server: Server): (s: Step<Value>)
    ensures Guarded(c, s) && NoRawFault(s)
    ensures c.loggedIn ==>
      var call := Rpc("user.logout", []);
      var o := Outcome(c, call, server);
      && s.sent == Requests(c, call)
      && (o.Ok? ==> s.result == Ok(Nil) && s.client == After(c, call, server).(loggedIn := false))
      && (o.Err? ==> s.result == o && s.client == After(c, call, server))
  {
    if !c.loggedIn then Refused(c)
    else
      var s := Wrap(Remote(c, Rpc("user.logout", []), server));
      if s.result.Err? then s
      else s.(client := s.client.(loggedIn := false), result := Ok(Nil))
  }

  /** `datasets()`: the dataset list the endpoint returns, fetched afresh. */
  function Datasets(c: Client, server: Server): (s: Step<Value>)
    ensures Guarded(c, s) && NoRawFault(s) && Keeps(c, s)
    ensures c.loggedIn ==> Relays(c, Rpc("boa.datasets", []), server, s)
  {
    Call(c, Rpc("boa.datasets", []), server)
  }

  /**
   * The `name` of each dataset record, in order; the first record that
   * cannot be subscripted stops the loop with its error.
   */
  function Names(items: seq<Value>): (r: Result<seq<Value>>)
    ensures r.Ok? ==>
      && |r.value| == |items|
      && forall i :: 0 <= i < |items| ==> Subscript(items[i], "name") == Ok(r.value[i])
    ensures r.Err? ==>
      exists i :: 0 <= i < |items| && Subscript(items[i], "name") == Err(r.error)
        && forall j :: 0 <= j < i ==> Subscript(items[j], "name").Ok?
  {
    if |items| == 0 then Ok([])
    else
      match Subscript(items[0], "name")
      case Err(e) => Err(e)
      case Ok(n) =>
        match Names(items[1..])
        case Err(e) =>
          ghost var i :| 0 <= i < |items[1..]| && Subscript(items[1..][i], "name") == Err(e)
            && forall j :: 0 <= j < i ==> Subscript(items[1..][j], "name").Ok?;
          assert forall j :: 1 <= j < i + 1 ==> items[j] == items[1..][j - 1];
          Err(e)
        case Ok(rest) => Ok([n] + rest)
  }

  /**
   * `dataset_names()`: one name per dataset, in the order the endpoint
   * listed them.
   */
  function DatasetNames(c: Client, server: Server): (s: Step<seq<Value>>)
    ensures Guarded(c, s) && NoRawFault(s) && Keeps(c, s)
    ensures c.loggedIn ==>
      var d := Datasets(c, server);
      && s.sent == d.sent && s.client == d.client
      && (d.result.Err? ==> s.result == Err(d.result.error))
      && (d.result.Ok? && Iterate(d.result.value).Err? ==> s.result == Err(TypeError))
      && (d.result.Ok? && Iterate(d.result.value).Ok? ==> s.result == Names(Iterate(d.result.value).value))
  {
    if !c.loggedIn then Refused(c)
    else
      var d := Datasets(c, server);
      if d.result.Err? then Step(d.client, Err(d.result.error), d.sent)
      else
        match Iterate(d.result.value)
        case Err(e) => Step(d.client, Err(e), d.sent)
        case Ok(items) => Step(d.client, Names(items), d.sent)
  }

  /** The record's name is readable and `==` the wanted one. */
  predicate Named(x: Value, name: Value)
  {
    Subscript(x, "name").Ok? && PyEq(Subscript(x, "name").value, name)
  }

  /** The record's name is readable and differs from the wanted one. */
  predicate OtherName(x: Value, name: Value)
  {
    Subscript(x, "name").Ok? && !PyEq(Subscript(x, "name").value, name)
  }

  /**
   * The loop of `get_dataset`: the first record whose name `==` the
   * wanted one, or None after a full scan; a record whose name cannot be
   * read stops the scan with its error, but only if no earlier record
   * matched.
   */
  function FirstNamed(items: seq<Value>, name: Value): (r: Result<Option<Value>>)
    ensures r.Ok? && r.value.Some? ==>
      exists i :: 0 <= i < |items| && items[i] == r.value.value && Named(items[i], name)
        && forall j :: 0 <= j < i ==> OtherName(items[j], name)
    ensures r.Ok? && r.value.None? ==> forall i :: 0 <= i < |items| ==> OtherName(items[i], name)
    ensures r.Err? ==>
      exists i :: 0 <= i < |items| && Subscript(items[i], "name") == Err(r.error)
        && forall j :: 0 <= j < i ==> OtherName(items[j], name)
  {
    if |items| == 0 then Ok(None)
    else
      match Subscript(items[0], "name")
      case Err(e) => Err(e)
      case Ok(n) =>
        if PyEq(n, name) then Ok(Some(items[0]))
        else
          var r := FirstNamed(items[1..], name);
          assert forall j :: 1 <= j < |items| ==> items[j] == items[1..][j - 1];
          if r.Ok? && r.value.Some? then
            ghost var i :| 0 <= i < |items[1..]| && items[1..][i] == r.value.value && Named(items[1..][i], name)
              && forall j :: 0 <= j < i ==> OtherName(items[1..][j], name);
            assert items[i + 1] == r.value.value;
            r
          else if r.Err? then
            ghost var i :| 0 <= i < |items[1..]| && Subscript(items[1..][i], "name") == Err(r.error)
              && forall j :: 0 <= j < i ==> OtherName(items[1..][j], name);
            assert Subscript(items[i + 1], "name") == Err(r.error);
            r
          else r
  }

  /** `get_dataset(name)`: the first listed dataset with that name, or None. */
  function GetDataset(c: Client, name: Value, server: Server): (s: Step<Option<Value>>)
    ensures Guarded(c, s) && NoRawFault(s) && Keeps(c, s)
    ensures c.loggedIn ==>
      var d := Datasets(c, server);
      && s.sent == d.sent && s.client == d.client
      && (d.result.Err? ==> s.result == Err(d.result.error))
      && (d.result.Ok? && Iterate(d.result.value).Err? ==> s.result == Err(TypeError))
      && (d.result.Ok? && Iterate(d.result.value).Ok? ==>
            s.result == FirstNamed(Iterate(d.result.value).value, name))
  {
    if !c.loggedIn then Refused(c)
    else
      var d := Datasets(c, server);
      if d.result.Err? then Step(d.client, Err(d.result.error), d.sent)
      else
        match Iterate(d.result.value)
        case Err(e) => Step(d.client, Err(e), d.sent)
        case Ok(items) => Step(d.client, FirstNamed(items, name), d.sent)
  }

  /** `job_count(pub_only)`: the count the endpoint returns. */
  function JobCount(c: Client, pubOnly: Value, server: Server): (s: Step<Value>)
    ensures Guarded(c, s) && NoRawFault(s) && Keeps(c, s)
    ensures c.loggedIn ==> Relays(c, Rpc("boa.count", [pubOnly]), server, s)
  {
    Call(c, Rpc("boa.count", [pubOnly]), server)
  }

  /** A returned record parsed into a handle of client `c`; parse errors are not wrapped. */
  function ParseReply(c: Client, s: Step<Value>): (p: Step<JobHandle>)
    ensures p.client == s.client && p.sent == s.sent
    ensures s.result.Err? ==> p.result == Err(s.result.error)
    ensures s.result.Ok? ==> p.result == Util.ParseJob(c.self, s.result.value)
  {
    if s.result.Err? then Step(s.client, Err(s.result.error), s.sent)
    else Step(s.client, Util.ParseJob(c.self, s.result.value), s.sent)
  }

  /**
   * The dataset id `query` submits against: the given dataset's `id`, or,
   * when none is given, that of the first dataset listed; with the
   * requests that choice sent.
   */
  function DatasetId(c: Client, dataset: Value, server: Server): (s: Step<Value>)
    requires c.loggedIn
    ensures NoRawFault(s) && Keeps(c, s)
    ensures dataset != Nil ==> s == Step(c, Get(dataset, "id"), [])
    ensures dataset == Nil ==>
      var d := Datasets(c, server);
      && s.sent == d.sent && s.client == d.client
      && (d.result.Err? ==> s.result == Err(d.result.error))
      && (d.result.Ok? ==>
            && (Index(d.result.value, 0).Err? ==> s.result == Err(Index(d.result.value, 0).error))
            && (Index(d.result.value, 0).Ok? ==> s.result == Get(Index(d.result.value, 0).value, "id")))
  {
    if dataset != Nil then Step(c, Get(dataset, "id"), [])
    else
      var d := Datasets(c, server);
      if d.result.Err? then Step(d.client, Err(d.result.error), d.sent)
      else
        match Index(d.result.value, 0)
        case Err(e) => Step(d.client, Err(e), d.sent)
        case Ok(first) => Step(d.client, Get(first, "id"), d.sent)
  }

  /**
   * `query(query, dataset)`: submits against the chosen dataset's id and
   * returns a handle on the job record the endpoint answers with.
   */
  function Query(c: Client, query: Value, dataset: Value, server: Server): (s: Step<JobHandle>)
    ensures Guarded(c, s) && NoRawFault(s) && Keeps(c, s)
    ensures c.loggedIn ==>
      var id := DatasetId(c, dataset, server);
      && (id.result.Err? ==> s.client == id.client && s.sent == id.sent && s.result == Err(id.result.error))
      && (id.result.Ok? ==>
            var submit := Call(id.client, Rpc("boa.submit", [query, id.result.value]), server);
            && Relays(id.client, Rpc("boa.submit", [query, id.result.value]), server, submit)
            && s.client == submit.client
            && s.sent == id.sent + submit.sent
            && s.result == ParseReply(c, submit).result)
  {
    if !c.loggedIn then Refused(c)
    else
      var id := DatasetId(c, dataset, server);
      if id.result.Err? then Step(id.client, Err(id.result.error), id.sent)
      else
        var submit := Call(id.client, Rpc("boa.submit", [query, id.result.value]), server);
        var p := ParseReply(c, submit);
        Step(p.client, p.result, id.sent + p.sent)
  }

  /** `get_job(id)`: a handle on the record the endpoint returns for that id. */
  function GetJob(c: Client, id: Value, server: Server): (s: Step<JobHandle>)
    ensures Guarded(c, s) && NoRawFault(s) && Keeps(c, s)
    ensures c.loggedIn ==>
      var r := Call(c, Rpc("boa.job", [id]), server);
      && Relays(c, Rpc("boa.job", [id]), server, r)
      && s.sent == r.sent && s.client == r.client
      && (r.result.Err? ==> s.result == r.result.PropagateFailure())
      && (r.result.Ok? ==> s.result == Util.ParseJob(c.self, r.result.value))
  {
    ParseReply(c, Call(c, Rpc("boa.job", [id]), server))
  }

  /**
   * The handles of `job_list`: one per record, in the endpoint's order;
   * the first record that does not parse stops the loop with its error.
   */
  function ParseAll(self: ClientRef, records: seq<Value>): (r: Result<seq<JobHandle>>)
    ensures r.Ok? ==>
      && |r.value| == |records|
      && forall i :: 0 <= i < |records| ==> Util.ParseJob(self, records[i]) == Ok(r.value[i])
    ensures r.Err? ==>
      exists i :: 0 <= i < |records| && Util.ParseJob(self, records[i]) == Err(r.error)
        && forall j :: 0 <= j < i ==> Util.ParseJob(self, records[j]).Ok?
  {
    if |records| == 0 then Ok([])
    else
      match Util.ParseJob(self, records[0])
      case Err(e) => Err(e)
      case Ok(h) =>
        match ParseAll(self, records[1..])
        case Err(e) =>
          ghost var i :| 0 <= i < |records[1..]| && Util.ParseJob(self, records[1..][i]) == Err(e)
            && forall j :: 0 <= j < i ==> Util.ParseJob(self, records[1..][j]).Ok?;
          assert forall j :: 1 <= j < i + 1 ==> records[j] == records[1..][j - 1];
          Err(e)
        case Ok(rest) => Ok([h] + rest)
  }

  /** `job_list(pub_only, offset, length)`: handles for the records the endpoint returns. */
  function JobList(c: Client, pubOnly: Value, offset: Value, length: Value, server: Server): (s: Step<seq<JobHandle>>)
    ensures Guarded(c, s) && NoRawFault(s) && Keeps(c, s)
    ensures c.loggedIn ==>
      var r := Call(c, Rpc("boa.range", [pubOnly, offset, length]), server);
      && Relays(c, Rpc("boa.range", [pubOnly, offset, length]), server, r)
      && s.sent == r.sent && s.client == r.client
      && (r.result.Err? ==> s.result == r.result.PropagateFailure())
      && (r.result.Ok? && Iterate(r.result.value).Err? ==> s.result == Err(TypeError))
      && (r.result.Ok? && Iterate(r.result.value).Ok? ==>
            s.result == ParseAll(c.self, Iterate(r.result.value).value))
  {
    if !c.loggedIn then Refused(c)
    else
      var r := Call(c, Rpc("boa.range", [pubOnly, offset, length]), server);
      if r.result.Err? then Step(r.client, Err(r.result.error), r.sent)
      else
        match Iterate(r.result.value)
        case Err(e) => Step(r.client, Err(e), r.sent)
        case Ok(records) => Step(r.client, ParseAll(c.self, records), r.sent)
  }

  /** `last_job()`: the first handle of `job_list(False, 0, 1)`. */
  function LastJob(c: Client, server: Server): (s: Step<JobHandle>)
    ensures Guarded(c, s) && NoRawFault(s) && Keeps(c, s)
    ensures c.loggedIn ==>
      var l := JobList(c, Bool(false), Int(0), Int(1), server);
      && s.sent == l.sent && s.client == l.client
      && (l.result.Err? ==> s.result == Err(l.result.error))
      && (l.result.Ok? && |l.result.value| == 0 ==> s.result == Err(IndexError))
      && (l.result.Ok? && |l.result.value| > 0 ==> s.result == Ok(l.result.value[0]))
  {
    if !c.loggedIn then Refused(c)
    else
      var l := JobList(c, Bool(false), Int(0), Int(1), server);
      if l.result.Err? then Step(l.client, Err(l.result.error), l.sent)
      else if |l.result.value| == 0 then Step(l.client, Err(IndexError), l.sent)
      else Step(l.client, Ok(l.result.value[0]), l.sent)
  }

  /** A per-job call that returns None: `_stop`, `_resubmit`, `_delete`, `_set_public`. */
  function Command(c: Client, call: Rpc, server: Server): (s: Step<Value>)
    ensures Guarded(c, s) && NoRawFault(s) && Keeps(c, s)
    ensures c.loggedIn ==> RelaysNone(c, call, server, s)
  {
    var r := Call(c, call, server);
    if r.result.Ok? then r.(result := Ok(Nil)) else r
  }

  /** `_stop(job)`. */
  function StopJob(c: Client, job: JobHandle, server: Server): (s: Step<Value>)
    ensures Guarded(c, s) && NoRawFault(s) && Keeps(c, s)
    ensures c.loggedIn ==> RelaysNone(c, Rpc("job.stop", [job.id]), server, s)
  {
    Command(c, Rpc("job.stop", [job.id]), server)
  }

  /** `_resubmit(job)`. */
  function ResubmitJob(c: Client, job: JobHandle, server: Server): (s: Step<Value>)
    ensures Guarded(c, s) && NoRawFault(s) && Keeps(c, s)
    ensures c.loggedIn ==> RelaysNone(c, Rpc("job.resubmit", [job.id]), server, s)
  {
    Command(c, Rpc("job.resubmit", [job.id]), server)
  }

  /** `_delete(job)`. */
  function DeleteJob(c: Client, job: JobHandle, server: Server): (s: Step<Value>)
    ensures Guarded(c, s) && NoRawFault(s) && Keeps(c, s)
    ensures c.loggedIn ==> RelaysNone(c, Rpc("job.delete", [job.id]), server, s)
  {
    Command(c, Rpc("job.delete", [job.id]), server)
  }

  /** The flag `_set_public` sends: 1 only for the value True itself (`is True`). */
  function PublicFlag(isPublic: Value): (flag: Value)
    ensures flag == Int(1) <==> isPublic == Bool(true)
    ensures flag == Int(0) <==> isPublic != Bool(true)
  {
    if isPublic == Bool(true) then Int(1) else Int(0)
  }

  /**
   * `_set_public(job, is_public)`: sends the job id and 1 when
   * `is_public` is the value True itself, 0 for anything else, 1 and
   * truthy values included.
   */
  function SetPublic(c: Client, job: JobHandle, isPublic: Value, server: Server): (s: Step<Value>)
    ensures Guarded(c, s) && NoRawFault(s) && Keeps(c, s)
    ensures c.loggedIn ==> RelaysNone(c, Rpc("job.setpublic", [job.id, PublicFlag(isPublic)]), server, s)
  {
    Command(c, Rpc("job.setpublic", [job.id, PublicFlag(isPublic)]), server)
  }

  /** `_public_status(job)`: True exactly when the reply `== 1`. */
  function PublicStatus(c: Client, job: JobHandle, server: Server): (s: Step<bool>)
    ensures Guarded(c, s) && NoRawFault(s) && Keeps(c, s)
    ensures c.loggedIn ==>
      var r := Call(c, Rpc("job.public", [job.id]), server);
      && Relays(c, Rpc("job.public", [job.id]), server, r)
      && s.sent == r.sent && s.client == r.client
      && (r.result.Err? ==> s.result == r.result.PropagateFailure())
      && (r.result.Ok? ==> s.result == Ok(r.result.value == Int(1) || r.result.value == Bool(true)))
  {
    if !c.loggedIn then Refused(c)
    else
      var r := Call(c, Rpc("job.public", [job.id]), server);
      if r.result.Err? then Step(r.client, Err(r.result.error), r.sent)
      else
        PyEqOne(r.result.value);
        Step(r.client, Ok(PyEq(r.result.value, Int(1))), r.sent)
  }

  /** `_get_url(job)`: the URL the endpoint returns. */
  function GetUrl(c: Client, job: JobHandle, server: Server): (s: Step<Value>)
    ensures Guarded(c, s) && NoRawFault(s) && Keeps(c, s)
    ensures c.loggedIn ==> Relays(c, Rpc("job.url", [job.id]), server, s)
  {
    Call(c, Rpc("job.url", [job.id]), server)
  }

  /** `_public_url(job)`: the public page URL the endpoint returns. */
  function PublicUrl(c: Client, job: JobHandle, server: Server): (s: Step<Value>)
    ensures Guarded(c, s) && NoRawFault(s) && Keeps(c, s)
    ensures c.loggedIn ==> Relays(c, Rpc("job.publicurl", [job.id]), server, s)
  {
    Call(c, Rpc("job.publicurl", [job.id]), server)
  }

  /** `_get_compiler_errors(job)`: the compiler errors the endpoint returns. */
  function CompilerErrors(c: Client, job: JobHandle, server: Server): (s: Step<Value>)
    ensures Guarded(c, s) && NoRawFault(s) && Keeps(c, s)
    ensures c.loggedIn ==> Relays(c, Rpc("job.compilerErrors", [job.id]), server, s)
  {
    Call(c, Rpc("job.compilerErrors", [job.id]), server)
  }

  /** `_source(job)`: the query source the endpoint returns. */
  function Source(c: Client, job: JobHandle, server: Server): (s: Step<Value>)
    ensures Guarded(c, s) && NoRawFault(s) && Keeps(c, s)
    ensures c.loggedIn ==> Relays(c, Rpc("job.source", [job.id]), server, s)
  {
    Call(c, Rpc("job.source", [job.id]), server)
  }

  /** The output guard passes only for the enum member FINISHED itself. */
  predicate Finished(job: JobHandle)
  {
    PyEq(job.execStatus, Execution(Status.ExecutionStatus.Finished))
  }

  /** The output guard failing: BoaException, nothing sent, nothing changed. */
  function StillRunning<T>(c: Client): Step<T>
  {
    Step(c, Err(Boa(RunningMessage, None)), [])
  }

  /**
   * `_output(job)`: unless the job's execution status is FINISHED it
   * raises "Job is currently running" without calling out; otherwise
   * it downloads the URL the endpoint names.
   */
  function Output(c: Client, job: JobHandle, server: Server, fetch: Fetcher): (s: Step<Bytes>)
    ensures Guarded(c, s) && NoRawFault(s) && Keeps(c, s)
    ensures c.loggedIn && job.execStatus != Execution(Status.ExecutionStatus.Finished) ==> s == StillRunning(c)
    ensures c.loggedIn && job.execStatus == Execution(Status.ExecutionStatus.Finished) ==>
      var r := Call(c, Rpc("job.output", [job.id]), server);
      && Relays(c, Rpc("job.output", [job.id]), server, r)
      && s.sent == r.sent && s.client == r.client
      && (r.result.Err? ==> s.result == r.result.PropagateFailure())
      && (r.result.Ok? ==> match fetch(r.result.value)
            case Downloaded(bytes) => s.result == Ok(bytes)
            case DownloadFailed(reason) => s.result == Err(FetchFailed(reason)))
  {
    PyEqExecution(job.execStatus, Status.ExecutionStatus.Finished);
    if !c.loggedIn then Refused(c)
    else if !Finished(job) then StillRunning(c)
    else
      var r := Call(c, Rpc("job.output", [job.id]), server);
      if r.result.Err? then Step(r.client, Err(r.result.error), r.sent)
      else
        match fetch(r.result.value)
        case Downloaded(bytes) => Step(r.client, Ok(bytes), r.sent)
        case DownloadFailed(reason) => Step(r.client, Err(FetchFailed(reason)), r.sent)
  }

  /** `_output_size(job)`: behind the same guard, the size the endpoint returns. */
  function OutputSize(c: Client, job: JobHandle, server: Server): (s: Step<Value>)
    ensures Guarded(c, s) && NoRawFault(s) && Keeps(c, s)
    ensures c.loggedIn && job.execStatus != Execution(Status.ExecutionStatus.Finished) ==> s == StillRunning(c)
    ensures c.loggedIn && job.execStatus == Execution(Status.ExecutionStatus.Finished) ==>
      Relays(c, Rpc("job.outputsize", [job.id]), server, s)
  {
    PyEqExecution(job.execStatus, Status.ExecutionStatus.Finished);
    if !c.loggedIn then Refused(c)
    else if !Finished(job) then StillRunning(c)
    else Call(c, Rpc("job.outputsize", [job.id]), server)
  }

  /**
   * `_output_hash(job)`: behind the same guard, the pair
   * `(int(res[0]), str(res[1]))` of the endpoint's reply `res`.
   */
  function OutputHash(c: Client, job: JobHandle, server: Server, render: Value -> string)
    : (s: Step<(int, string)>)
    ensures Guarded(c, s) && NoRawFault(s) && Keeps(c, s)
    ensures c.loggedIn && job.execStatus != Execution(Status.ExecutionStatus.Finished) ==> s == StillRunning(c)
    ensures c.loggedIn && job.execStatus == Execution(Status.ExecutionStatus.Finished) ==>
      var r := Call(c, Rpc("job.outputhash", [job.id]), server);
      && Relays(c, Rpc("job.outputhash", [job.id]), server, r)
      && s.sent == r.sent && s.client == r.client
      && (r.result.Err? ==> s.result == r.result.PropagateFailure())
      && (r.result.Ok? ==>
            var res := r.result.value;
            && (Index(res, 0).Err? ==> s.result == Err(Index(res, 0).error))
            && (Index(res, 0).Ok? && IntOf(Index(res, 0).value).Err? ==>
                  s.result == Err(IntOf(Index(res, 0).value).error))
            && (Index(res, 0).Ok? && IntOf(Index(res, 0).value).Ok? && Index(res, 1).Err? ==>
                  s.result == Err(Index(res, 1).error))
            && (Index(res, 0).Ok? && IntOf(Index(res, 0).value).Ok? && Index(res, 1).Ok? ==>
                  s.result == Ok((IntOf(Index(res, 0).value).value, render(Index(res, 1).value)))))
  {
    PyEqExecution(job.execStatus, Status.ExecutionStatus.Finished);
    if !c.loggedIn then Refused(c)
    else if !Finished(job) then StillRunning(c)
    else
      var r := Call(c, Rpc("job.outputhash", [job.id]), server);
      if r.result.Err? then Step(r.client, Err(r.result.error), r.sent)
      else
        var pair: Result<(int, string)> :=
          var first :- Index(r.result.value, 0);
          var size :- IntOf(first);
          var second :- Index(r.result.value, 1);
          Ok((size, render(second)));
        Step(r.client, pair, r.sent)
  }

  /**
   * `JobHandle.refresh()` run against the client the handle refers to:
   * it fetches the job by the handle's own id and takes over the
   * fetched statuses and date; on an exception the handle is left as
   * it was.
   */
  function Refresh(c: Client, h: JobHandle, server: Server): (s: Step<JobHandle>)
    requires h.client == c.self
    ensures Guarded(c, s) && NoRawFault(s) && Keeps(c, s)
    ensures c.loggedIn ==> s.sent == Requests(c, Rpc("boa.job", [h.id]))
    ensures c.loggedIn ==> s.client == After(c, Rpc("boa.job", [h.id]), server)
    ensures s.client == GetJob(c, h.id, server).client
    ensures var fetched := GetJob(c, h.id, server).result;
      && (fetched.Ok? ==> s.result == Ok(RefreshWith(h, fetched.value)))
      && (fetched.Err? ==> s.result == fetched)
  {
    var g := GetJob(c, h.id, server);
    if g.result.Err? then g
    else Step(g.client, Ok(RefreshWith(h, g.result.value)), g.sent)
  }

  /**
   * Every attribute a BoaClient object has besides those inherited from
   * `object` (whose names all start and end with "__"): the methods of
   * the class and the three attributes `__init__` assigns.
   */
  const ClientAttributes: set<string> := {
    "login", "close", "ensure_logged_in", "datasets", "dataset_names", "get_dataset",
    "last_job", "job_count", "query", "get_job", "job_list",
    "_stop", "_resubmit", "_delete", "_set_public", "_public_status", "_get_url",
    "_public_url", "_get_compiler_errors", "_source", "_output", "_output_size", "_output_hash",
    "trans", "_BoaClient__logged_in", "server"}

  /**
   * A name of the `__eq__` kind: every Python object has such attributes
   * (inherited from `object`), and what they do with a job handle is not
   * part of this model.
   */
  predicate Dunder(name: string)
  {
    |name| >= 4 && name[..2] == "__" && name[|name| - 2..] == "__"
  }

  /** The client methods that take a job handle. */
  const JobOperations: set<string> := {
    "_stop", "_resubmit", "_delete", "_set_public", "_public_status", "_get_url",
    "_public_url", "_get_compiler_errors", "_source", "_output", "_output_size", "_output_hash"}

  /** What a job operation hands back, whichever one it was. */
  datatype OpResult =
    | Nothing
    | Plain(value: Value)
    | Flag(flag: bool)
    | Content(bytes: Bytes)
    | SizeAndHash(size: int, hash: string)

  function AsNothing(v: Value): OpResult { Nothing }
  function AsPlain(v: Value): OpResult { Plain(v) }
  function AsFlag(b: bool): OpResult { Flag(b) }
  function AsContent(b: Bytes): OpResult { Content(b) }
  function AsPair(p: (int, string)): OpResult { SizeAndHash(p.0, p.1) }

  function Lift<T>(s: Step<T>, f: T -> OpResult): (a: Step<OpResult>)
    ensures a.client == s.client && a.sent == s.sent
    ensures s.result.Err? ==> a.result == Err(s.result.error)
    ensures s.result.Ok? ==> a.result == Ok(f(s.result.value))
  {
    match s.result
    case Ok(v) => Step(s.client, Ok(f(v)), s.sent)
    case Err(e) => Step(s.client, Err(e), s.sent)
  }

  /** The number of arguments besides the handle a job operation takes. */
  function Arity(attribute: string): nat
  {
    if attribute == "_set_public" then 1 else 0
  }

  /**
   * A handle's call `client.<attribute>(handle, args...)` resolved on the
   * client: an attribute the client lacks raises AttributeError before
   * anything runs; a job operation given the wrong number of arguments
   * raises TypeError; otherwise the operation of that name runs.
   */
  function Invoke(c: Client, d: Delegation, server: Server, fetch: Fetcher, render: Value -> string)
    : (s: Step<OpResult>)
    requires d.attribute in JobOperations || (d.attribute !in ClientAttributes && !Dunder(d.attribute))
    ensures d.attribute !in ClientAttributes ==> s == Step(c, Err(AttributeError(d.attribute)), [])
    ensures d.attribute in JobOperations && |d.args| != Arity(d.attribute) ==> s == Step(c, Err(TypeError), [])
    ensures d.attribute in JobOperations && |d.args| == Arity(d.attribute) ==>
      && Guarded(c, s) && NoRawFault(s) && Keeps(c, s)
      && var h := d.handle;
      && (d.attribute == "_stop" ==> s == Lift(StopJob(c, h, server), AsNothing))
      && (d.attribute == "_resubmit" ==> s == Lift(ResubmitJob(c, h, server), AsNothing))
      && (d.attribute == "_delete" ==> s == Lift(DeleteJob(c, h, server), AsNothing))
      && (d.attribute == "_set_public" ==> s == Lift(SetPublic(c, h, d.args[0], server), AsNothing))
      && (d.attribute == "_public_status" ==> s == Lift(PublicStatus(c, h, server), AsFlag))
      && (d.attribute == "_get_url" ==> s == Lift(GetUrl(c, h, server), AsPlain))
      && (d.attribute == "_public_url" ==> s == Lift(PublicUrl(c, h, server), AsPlain))
      && (d.attribute == "_get_compiler_errors" ==> s == Lift(CompilerErrors(c, h, server), AsPlain))
      && (d.attribute == "_source" ==> s == Lift(Source(c, h, server), AsPlain))
      && (d.attribute == "_output" ==> s == Lift(Output(c, h, server, fetch), AsContent))
      && (d.attribute == "_output_size" ==> s == Lift(OutputSize(c, h, server), AsPlain))
      && (d.attribute == "_output_hash" ==> s == Lift(OutputHash(c, h, server, render), AsPair))
  {
    var h := d.handle;
    if d.attribute !in ClientAttributes then Step(c, Err(AttributeError(d.attribute)), [])
    else if |d.args| != Arity(d.attribute) then Step(c, Err(TypeError), [])
    else if d.attribute == "_stop" then Lift(StopJob(c, h, server), AsNothing)
    else if d.attribute == "_resubmit" then Lift(ResubmitJob(c, h, server), AsNothing)
    else if d.attribute == "_delete" then Lift(DeleteJob(c, h, server), AsNothing)
    else if d.attribute == "_set_public" then Lift(SetPublic(c, h, d.args[0], server), AsNothing)
    else if d.attribute == "_public_status" then Lift(PublicStatus(c, h, server), AsFlag)
    else if d.attribute == "_get_url" then Lift(GetUrl(c, h, server), AsPlain)
    else if d.attribute == "_public_url" then Lift(PublicUrl(c, h, server), AsPlain)
    else if d.attribute == "_get_compiler_errors" then Lift(CompilerErrors(c, h, server), AsPlain)
    else if d.attribute == "_source" then Lift(Source(c, h, server), AsPlain)
    else if d.attribute == "_output" then Lift(Output(c, h, server, fetch), AsContent)
    else if d.attribute == "_output_size" then Lift(OutputSize(c, h, server), AsPlain)
    else
      assert d.attribute == "_output_hash";
      Lift(OutputHash(c, h, server, render), AsPair)
  }

  /** No name a delegating method calls looks like an inherited attribute. */
  lemma ForwardNameNotDunder(m: HandleMethod)
    ensures !Dunder(AttributeName(m))
  {
    var name := AttributeName(m);
    assert name[0] != '_';
    assert |name| >= 2 ==> name[..2][0] == name[0];
  }

  /**
   * As written, every delegating method of a handle calls a client
   * attribute that does not exist (the client spells them with a leading
   * underscore), so each raises AttributeError, logged in or not,
   * without sending anything or changing the client.
   */
  lemma ForwardingFails(c: Client, h: JobHandle, m: HandleMethod, server: Server, fetch: Fetcher,
                        render: Value -> string)
    ensures AttributeName(m) !in ClientAttributes && !Dunder(AttributeName(m))
    ensures "_" + AttributeName(m) in JobOperations
    ensures Invoke(c, Forward(h, m), server, fetch, render) == Step(c, Err(AttributeError(AttributeName(m))), [])
  {
    ForwardNameNotDunder(m);
    // The prover does not evaluate string concatenation on its own: each
    // case spells out the underscored name so that it can be looked up in
    // JobOperations.
    match m
    case Stop => assert "_" + "stop" == "_stop";
    case Resubmit => assert "_" + "resubmit" == "_resubmit";
    case Delete => assert "_" + "delete" == "_delete";
    case GetUrl => assert "_" + "get_url" == "_get_url";
    case SetPublic(_) => assert "_" + "set_public" == "_set_public";
    case PublicStatus => assert "_" + "public_status" == "_public_status";
    case PublicUrl => assert "_" + "public_url" == "_public_url";
    case Source => assert "_" + "source" == "_source";
    case GetCompilerErrors => assert "_" + "get_compiler_errors" == "_get_compiler_errors";
    case Output => assert "_" + "output" == "_output";
  }

  /** No enum member occurs in the value: true of everything XML-RPC decodes. */
  predicate FromWire(v: Value)
    decreases v
  {
    match v
    case Compiler(_) => false
    case Execution(_) => false
    case List(xs) => forall i :: 0 <= i < |xs| ==> FromWire(xs[i])
    case Dict(es) => forall i :: 0 <= i < |es| ==> FromWire(es[i].value)
    case _ => true
  }

  /**
   * `parse_job` stores the raw status string while the output guard
   * compares with the enum member, so for a handle parsed from any
   * decoded record the guard never passes: output, output size and
   * output hash all raise "Job is currently running" without a call.
   */
  lemma ParsedJobNeverFinished(c: Client, record: Value, server: Server, fetch: Fetcher,
                               render: Value -> string)
    requires c.loggedIn && FromWire(record) && Util.ParseJob(c.self, record).Ok?
    ensures var h := Util.ParseJob(c.self, record).value;
      && Output(c, h, server, fetch) == StillRunning(c)
      && OutputSize(c, h, server) == StillRunning(c)
      && OutputHash(c, h, server, render) == StillRunning(c)
  {
    Util.ParseJobSpec(c.self, record);
    var es := record.entries;
    var i :| 0 <= i < |es| && es[i].key == Util.JobKeys[4] && es[i].value == Util.Field(record, 4)
      && Wins(es, i);
    assert FromWire(es[i].value);
  }

  /** The endpoint's answer does not depend on the session headers. */
  ghost predicate HeaderBlind(server: Server)
  {
    forall a: Request, b: Request :: a.call == b.call ==> server(a) == server(b)
  }

  /**
   * With an endpoint whose answer does not depend on the session
   * headers, refreshing a handle a second time changes nothing further.
   */
  lemma RefreshTwice(c: Client, h: JobHandle, server: Server)
    requires h.client == c.self && HeaderBlind(server)
    ensures var first := Refresh(c, h, server);
      first.result.Ok? ==> Refresh(first.client, first.result.value, server).result == first.result
  {
    var first := Refresh(c, h, server);
    if first.result.Ok? {
      var h1 := first.result.value;
      var c1 := first.client;
      var call := Rpc("boa.job", [h.id]);
      assert server(RequestFor(c1, call)) == server(RequestFor(c, call));
      assert GetJob(c1, h1.id, server).result == GetJob(c, h.id, server).result;
      RefreshIdempotent(h, GetJob(c, h.id, server).result.value);
    }
  }

  /** Every operation but `login` refuses a logged-out client before any call. */
  lemma EveryOperationGuarded(c: Client, server: Server, fetch: Fetcher, render: Value -> string,
                              job: JobHandle, a: Value, b: Value, d: Value)
    requires !c.loggedIn
    ensures Close(c, server) == Refused(c)
    ensures Datasets(c, server) == Refused(c)
    ensures DatasetNames(c, server) == Refused(c)
    ensures GetDataset(c, a, server) == Refused(c)
    ensures LastJob(c, server) == Refused(c)
    ensures JobCount(c, a, server) == Refused(c)
    ensures Query(c, a, b, server) == Refused(c)
    ensures GetJob(c, a, server) == Refused(c)
    ensures JobList(c, a, b, d, server) == Refused(c)
    ensures StopJob(c, job, server) == Refused(c)
    ensures ResubmitJob(c, job, server) == Refused(c)
    ensures DeleteJob(c, job, server) == Refused(c)
    ensures SetPublic(c, job, a, server) == Refused(c)
    ensures PublicStatus(c, job, server) == Refused(c)
    ensures GetUrl(c, job, server) == Refused(c)
    ensures PublicUrl(c, job, server) == Refused(c)
    ensures CompilerErrors(c, job, server) == Refused(c)
    ensures Source(c, job, server) == Refused(c)
    ensures Output(c, job, server, fetch) == Refused(c)
    ensures OutputSize(c, job, server) == Refused(c)
    ensures OutputHash(c, job, server, render) == Refused(c)
  {
  }
}

=== FILE: exceptions.dfy ===
/**
 * The exceptions the client library can surface, and the result type
 * the rest of the model returns instead of raising one.
 */
module Exceptions {
  import opened Wrappers

  /** The key of a failed subscript: `d['id']` or `d[0]`. */
  datatype Key = StrKey(name: string) | IntKey(index: int)

  /** An `xmlrpc.client.Fault` as the endpoint sent it. */
  datatype Fault = Fault(faultCode: int, faultString: string)

  /**
   * Every exception kind the modelled code can raise or let through.
   *  - NotLoggedIn: `NotLoggedInException` raised by the login guard.
   *  - Boa: `BoaException(message)`, with the fault it was raised from.
   *  - RawFault: an XML-RPC fault before the client wraps it.
   *  - ProtocolError: a non-200 HTTP answer to an RPC request.
   *  - FetchFailed: whatever the output download raised.
   *  - OverflowError: an int argument outside XML-RPC's 32-bit range.
   *  - the rest are Python's built-in exceptions of the same name.
   */
  datatype Error =
    | NotLoggedIn(message: string)
    | Boa(message: string, cause: Option<Fault>)
    | RawFault(fault: Fault)
    | ProtocolError(status: int)
    | FetchFailed(reason: string)
    | KeyError(key: Key)
    | IndexError
    | TypeError
    | ValueError
    | OverflowError
    | AttributeError(attribute: string)

  /** A value, or the exception that was raised instead of returning one. */
  datatype Result<+T> = Ok(value: T) | Err(error: Error) {

    predicate IsFailure() {
      Err?
    }

    function PropagateFailure<U>(): Result<U>
      requires Err?
    {
      Err(error)
    }

    function Extract(): T
      requires Ok?
    {
      value
    }
  }
}

=== FILE: job_handle.dfy ===
/**
 * A handle on one submitted job (`JobHandle` in boaapi/job_handle.py):
 * the fields of the job record it was built from, a back-reference to
 * the client that made it, and the operations it passes on to that
 * client.
 */
module JobHandles {
  import opened Values

  /** Identity of the client object a handle refers back to. */
  type ClientRef = nat

  /**
   * The six attributes the constructor stores verbatim. They hold
   * whatever the caller passed: `parse_job` passes the record's raw
   * values, so the two status fields are then strings, not enum members.
   */
  datatype JobHandle = JobHandle(
    client: ClientRef,
    id: Value,
    date: Value,
    dataset: Value,
    compilerStatus: Value,
    execStatus: Value)

  /** The pieces `__str__` concatenates: literals and field renderings alternate. */
  function DescribeParts(h: JobHandle, render: Value -> string): seq<string>
  {
    ["id: ", render(h.id), ", date:", render(h.date), ", dataset:", render(h.dataset),
     ", compiler_status: (", render(h.compilerStatus), ")", ", execution_status: (",
     render(h.execStatus), ")"]
  }

  /** The pieces of `parts` one after another. */
  function Concat(parts: seq<string>): (s: string)
  {
    if |parts| == 0 then "" else Concat(parts[..|parts| - 1]) + parts[|parts| - 1]
  }

  /**
   * `__str__`, with `str()` of each field given as `render`: the pieces
   * above, in order.
   */
  function Describe(h: JobHandle, render: Value -> string): string
  {
    Concat(DescribeParts(h, render))
  }

  /** `piece` occurs in `r` starting at offset `off`. */
  predicate At(r: string, off: int, piece: string)
  {
    0 <= off && off + |piece| <= |r| && r[off..off + |piece|] == piece
  }

  /** The concatenation of a prefix of the pieces is a prefix of the whole. */
  lemma {:induction false} ConcatPrefix(parts: seq<string>, k: nat)
    requires k <= |parts|
    ensures |Concat(parts[..k])| <= |Concat(parts)|
    ensures Concat(parts)[..|Concat(parts[..k])|] == Concat(parts[..k])
    decreases |parts|
  {
    if k < |parts| {
      var front := parts[..|parts| - 1];
      assert front[..k] == parts[..k];
      ConcatPrefix(front, k);
    } else {
      assert parts[..k] == parts;
    }
  }

  /** Piece k starts where the pieces before it end. */
  lemma ConcatAt(parts: seq<string>, k: nat)
    requires k < |parts|
    ensures At(Concat(parts), |Concat(parts[..k])|, parts[k])
  {
    var upTo := parts[..k + 1];
    assert upTo[..k] == parts[..k];
    ConcatPrefix(parts, k + 1);
  }

  lemma ConcatStep(parts: seq<string>, k: nat)
    requires k < |parts|
    ensures Concat(parts[..k + 1]) == Concat(parts[..k]) + parts[k]
  {
    assert parts[..k + 1][..k] == parts[..k];
  }

  /**
   * The layout of `__str__`: "id: <id>, date:<date>, dataset:<dataset>,
   * compiler_status: (<cs>), execution_status: (<es>)". Each piece sits
   * right after the ones before it, and the literals add 64 characters
   * to the five renderings.
   */
  lemma DescribeLayout(h: JobHandle, render: Value -> string)
    ensures var parts := DescribeParts(h, render);
      && |Describe(h, render)| == 64 + |render(h.id)| + |render(h.date)| + |render(h.dataset)|
           + |render(h.compilerStatus)| + |render(h.execStatus)|
      && forall k :: 0 <= k < |parts| ==> At(Describe(h, render), |Concat(parts[..k])|, parts[k])
  {
    var parts := DescribeParts(h, render);
    assert parts[..0] == [];
    ConcatStep(parts, 0); ConcatStep(parts, 1); ConcatStep(parts, 2); ConcatStep(parts, 3);
    ConcatStep(parts, 4); ConcatStep(parts, 5); ConcatStep(parts, 6); ConcatStep(parts, 7);
    ConcatStep(parts, 8); ConcatStep(parts, 9); ConcatStep(parts, 10); ConcatStep(parts, 11);
    assert parts[..12] == parts;
    forall k | 0 <= k < |parts|
      ensures At(Describe(h, render), |Concat(parts[..k])|, parts[k])
    {
      ConcatAt(parts, k);
    }
  }

  /**
   * The assignments `refresh` makes once it holds the freshly fetched
   * job: both statuses and the date come from it, the rest stays.
   */
  function RefreshWith(h: JobHandle, fetched: JobHandle): (r: JobHandle)
    ensures r.compilerStatus == fetched.compilerStatus
    ensures r.execStatus == fetched.execStatus
    ensures r.date == fetched.date
    ensures r.id == h.id && r.dataset == h.dataset && r.client == h.client
  {
    h.(compilerStatus := fetched.compilerStatus, execStatus := fetched.execStatus, date := fetched.date)
  }

  /** Refreshing twice from the same fetched job is refreshing once. */
  lemma RefreshIdempotent(h: JobHandle, fetched: JobHandle)
    ensures RefreshWith(RefreshWith(h, fetched), fetched) == RefreshWith(h, fetched)
  {
  }

  /** The handle's methods that hand themselves to the client. */
  datatype HandleMethod =
    | Stop
    | Resubmit
    | Delete
    | GetUrl
    | SetPublic(status: Value)
    | PublicStatus
    | PublicUrl
    | Source
    | GetCompilerErrors
    | Output

  /** The client attribute each method calls, exactly as it is spelled there. */
  function AttributeName(m: HandleMethod): string
  {
    match m
    case Stop => "stop"
    case Resubmit => "resubmit"
    case Delete => "delete"
    case GetUrl => "get_url"
    case SetPublic(_) => "set_public"
    case PublicStatus => "public_status"
    case PublicUrl => "public_url"
    case Source => "source"
    case GetCompilerErrors => "get_compiler_errors"
    case Output => "output"
  }

  /** A call `self.client.<attribute>(handle, args...)`. */
  datatype Delegation = Delegation(attribute: string, handle: JobHandle, args: seq<Value>)

  /**
   * A delegating method: it passes the handle itself, plus the status
   * for `set_public`, to the attribute it names, and does nothing else.
   */
  function Forward(h: JobHandle, m: HandleMethod): (d: Delegation)
    ensures d.handle == h
    ensures d.args == (if m.SetPublic? then [m.status] else [])
    ensures d.attribute == AttributeName(m)
  {
    match m
    case SetPublic(status) => Delegation(AttributeName(m), h, [status])
    case _ => Delegation(AttributeName(m), h, [])
  }
}

=== FILE: marshal.dfy ===
/**
 * What the XML-RPC marshaller accepts as call arguments. The client's
 * `ServerProxy` is built without `allow_none`, so a None anywhere in the
 * arguments raises TypeError, and an int outside the signed 32-bit range
 * raises OverflowError; either is raised while the request is being
 * encoded, before anything is sent.
 */
module Marshal {
  import opened Wrappers
  import opened Exceptions
  import opened Values

  const MinInt := -0x8000_0000
  const MaxInt := 0x7fff_ffff

  /** The first fault in a sequence of per-item checks, if any. */
  function FirstFault(faults: seq<Option<Error>>): (e: Option<Error>)
    ensures e.None? <==> forall i :: 0 <= i < |faults| ==> faults[i].None?
    ensures e.Some? ==>
      exists i :: 0 <= i < |faults| && faults[i] == e && forall j :: 0 <= j < i ==> faults[j].None?
  {
    if |faults| == 0 then None
    else if faults[0].Some? then faults[0]
    else
      var e := FirstFault(faults[1..]);
      assert forall j :: 1 <= j < |faults| ==> faults[j] == faults[1..][j - 1];
      if e.Some? then
        ghost var i :| 0 <= i < |faults[1..]| && faults[1..][i] == e
          && forall j :: 0 <= j < i ==> faults[1..][j].None?;
        assert faults[i + 1] == e;
        e
      else e
  }

  /**
   * The exception encoding `v` raises, if any: a dict's values are
   * encoded in entry order, each key with the value that won it.
   */
  function MarshalFault(v: Value): (e: Option<Error>)
    decreases v
    ensures v.Nil? ==> e == Some(TypeError)
    ensures v.Int? ==> (e.None? <==> MinInt <= v.i <= MaxInt)
    ensures v.Int? && e.Some? ==> e.value == OverflowError
    ensures v.Bool? || v.Str? ==> e.None?
    ensures e.Some? ==> e.value == TypeError || e.value == OverflowError
    ensures v.List? ==> (e.None? <==> forall k :: 0 <= k < |v.items| ==> MarshalFault(v.items[k]).None?)
    ensures v.List? && e.Some? ==>
      exists k :: 0 <= k < |v.items| && MarshalFault(v.items[k]) == e
        && forall j :: 0 <= j < k ==> MarshalFault(v.items[j]).None?
    ensures v.Dict? ==>
      (e.None? <==> forall k :: 0 <= k < |v.entries| && Wins(v.entries, k) ==> MarshalFault(v.entries[k].value).None?)
    ensures v.Dict? && e.Some? ==>
      exists k :: 0 <= k < |v.entries| && Wins(v.entries, k) && MarshalFault(v.entries[k].value) == e
        && forall j :: 0 <= j < k && Wins(v.entries, j) ==> MarshalFault(v.entries[j].value).None?
  {
    match v
    case Nil => Some(TypeError)
    case Int(i) => if MinInt <= i <= MaxInt then None else Some(OverflowError)
    case List(xs) =>
      var faults := seq(|xs|, k requires 0 <= k < |xs| => MarshalFault(xs[k]));
      assert forall k :: 0 <= k < |xs| ==> faults[k] == MarshalFault(xs[k]);
      FirstFault(faults)
    case Dict(es) =>
      var faults := seq(|es|, k requires 0 <= k < |es| => if Wins(es, k) then MarshalFault(es[k].value) else None);
      assert forall k :: 0 <= k < |es| ==> faults[k] == (if Wins(es, k) then MarshalFault(es[k].value) else None);
      FirstFault(faults)
    case _ => None
  }

  /** The exception encoding a call's arguments raises, if any. */
  function ParamsFault(params: seq<Value>): (e: Option<Error>)
    ensures e.None? <==> forall k :: 0 <= k < |params| ==> MarshalFault(params[k]).None?
    ensures e.Some? ==>
      exists k :: 0 <= k < |params| && MarshalFault(params[k]) == e
        && forall j :: 0 <= j < k ==> MarshalFault(params[j]).None?
  {
    var faults := seq(|params|, k requires 0 <= k < |params| => MarshalFault(params[k]));
    assert forall k :: 0 <= k < |params| ==> faults[k] == MarshalFault(params[k]);
    FirstFault(faults)
  }

  /** A value the marshaller encodes: no None and no out-of-range int anywhere in it. */
  predicate Encodable(v: Value)
    decreases v
  {
    match v
    case Nil => false
    case Int(i) => MinInt <= i <= MaxInt
    case List(xs) => forall k :: 0 <= k < |xs| ==> Encodable(xs[k])
    case Dict(es) => forall k :: 0 <= k < |es| ==> Wins(es, k) ==> Encodable(es[k].value)
    case _ => true
  }

  /** Encoding raises nothing exactly when the value holds no None and no out-of-range int. */
  lemma {:induction false} MarshalFaultIffNotEncodable(v: Value)
    decreases v
    ensures MarshalFault(v).None? <==> Encodable(v)
  {
    match v
    case List(xs) =>
      var faults := seq(|xs|, k requires 0 <= k < |xs| => MarshalFault(xs[k]));
      assert MarshalFault(v) == FirstFault(faults);
      forall k | 0 <= k < |xs| ensures faults[k].None? <==> Encodable(xs[k]) {
        MarshalFaultIffNotEncodable(xs[k]);
      }
    case Dict(es) =>
      var faults := seq(|es|, k requires 0 <= k < |es| => if Wins(es, k) then MarshalFault(es[k].value) else None);
      assert MarshalFault(v) == FirstFault(faults);
      forall k | 0 <= k < |es| && Wins(es, k) ensures faults[k].None? <==> Encodable(es[k].value) {
        MarshalFaultIffNotEncodable(es[k].value);
      }
    case _ =>
  }
}

=== FILE: scenarios.dfy ===
/** Concrete sessions against a scripted endpoint. */
module Scenarios {
  import opened Wrappers
  import opened Exceptions
  import opened Values
  import opened Transport
  import opened BoaClient
  import opened JobHandles
  import Marshal

  /** An endpoint that logs anyone in with token "T1" and a session cookie. */
  function LoginServer(r: Request): Reply
  {
    if r.call.name == "user.login" then
      Answer([Header("Set-Cookie", "sid=abc; Path=/")], Returned(Dict([Entry("token", Str("T1"))])))
    else Answer([], Returned(Nil))
  }

  const LoginCall := Rpc("user.login", [Str("alice"), Str("pw")])
  const LoginHeaders := [Header("Set-Cookie", "sid=abc; Path=/")]

  /** The reply's only header is found under `Set-Cookie`. */
  lemma LoginCookieFound()
    ensures ValuesOf(LoginHeaders, SetCookieHeader) == ["sid=abc; Path=/"]
  {
  }

  /** The `Set-Cookie` value is cut at its first ';'. */
  lemma LoginCookieCut()
    ensures CookiePart("sid=abc; Path=/") == "sid=abc"
  {
    var h := "sid=abc; Path=/";
    var c := CookiePart(h);
    assert h[7] == ';' && forall j :: 0 <= j < 7 ==> h[j] != ';';
    assert h[..7] == "sid=abc";
  }

  /** The reply's `Set-Cookie` value is harvested as "sid=abc". */
  lemma LoginCookieHarvested()
    ensures ParseResponse(Transport.New(), LoginHeaders) == State(["sid=abc"], [])
  {
    LoginCookieFound();
    LoginCookieCut();
    assert CookieParts(["sid=abc; Path=/"]) == ["sid=abc"];
  }

  /** The login call itself: sent bare, the cookie kept, the reply returned. */
  lemma LoginRemoteStep()
    ensures Remote(BoaClient.New(0).(loggedIn := true), LoginCall, LoginServer)
         == Step(Client(0, State(["sid=abc"], []), true),
                 Ok(Dict([Entry("token", Str("T1"))])),
                 [Request(LoginCall, [])])
  {
    LoginCookieHarvested();
    assert LoginServer(Request(LoginCall, [])) == Answer(LoginHeaders, Returned(Dict([Entry("token", Str("T1"))])));
  }

  /**
   * After `login("alice", "pw")` against that endpoint, the next call
   * carries `Cookie: sid=abc` and `X-CSRF-Token: T1`.
   */
  lemma LoginCarriesSession()
    ensures var s := Login(BoaClient.New(0), Str("alice"), Str("pw"), LoginServer);
      && s.result.Ok? && s.client.loggedIn
      && s.client.trans == State(["sid=abc"], ["T1"])
      && RequestFor(s.client, Rpc("boa.datasets", [])).headers
           == [Header("Cookie", "sid=abc"), Header("X-CSRF-Token", "T1")]
  {
    LoginRemoteStep();
    assert Lookup([Entry("token", Str("T1"))], "token") == Some(Str("T1"));
    var s := Login(BoaClient.New(0), Str("alice"), Str("pw"), LoginServer);
    assert s.client.trans == State(["sid=abc"], ["T1"]);
    assert Join(["sid=abc"], Separator) == "sid=abc";
    assert Join(["T1"], Separator) == "T1";
  }

  const Ds1 := Dict([Entry("id", Int(1)), Entry("name", Str("ds1"))])
  const Ds2 := Dict([Entry("id", Int(2)), Entry("name", Str("ds2"))])

  /** An endpoint with two datasets that accepts every submission as job 7. */
  function CatalogServer(r: Request): Reply
  {
    if r.call.name == "boa.datasets" then Answer([], Returned(List([Ds1, Ds2])))
    else if r.call.name == "boa.submit" then Answer([], Returned(Int(7)))
    else Answer([], Returned(Nil))
  }

  /** With no dataset given, the id of the first listed dataset is used. */
  lemma DefaultDatasetIsFirst()
    ensures DatasetId(Client(0, Transport.New(), true), Nil, CatalogServer).result == Ok(Int(1))
  {
    var c := Client(0, Transport.New(), true);
    assert CatalogServer(RequestFor(c, Rpc("boa.datasets", []))) == Answer([], Returned(List([Ds1, Ds2])));
    assert Index(List([Ds1, Ds2]), 0) == Ok(Ds1);
    assert Lookup(Ds1.entries, "id") == Some(Int(1));
  }

  /**
   * `query(q)` without a dataset lists the datasets, then submits `q`
   * together with the first dataset's id.
   */
  lemma QueryUsesFirstDataset(q: string)
    ensures var s := Query(Client(0, Transport.New(), true), Str(q), Nil, CatalogServer);
      && |s.sent| == 2
      && s.sent[0].call == Rpc("boa.datasets", [])
      && s.sent[1].call == Rpc("boa.submit", [Str(q), Int(1)])
  {
    var c := Client(0, Transport.New(), true);
    DefaultDatasetIsFirst();
    var id := DatasetId(c, Nil, CatalogServer);
    assert Marshal.ParamsFault([]).None?;
    assert id.sent == [RequestFor(c, Rpc("boa.datasets", []))];
    assert id.client == c;
    assert Marshal.MarshalFault(Str(q)).None? && Marshal.MarshalFault(Int(1)).None?;
    assert Marshal.ParamsFault([Str(q), Int(1)]).None?;
  }

  /**
   * `query(q, {'name': 'ds'})`: the dataset has no id, `.get('id')` is
   * None, and encoding the submission raises TypeError before anything
   * is sent or any cookie changes.
   */
  lemma QueryWithoutIdSendsNothing(q: string, server: Server)
    ensures var c := Client(0, Transport.New(), true);
      Query(c, Str(q), Dict([Entry("name", Str("ds"))]), server) == Step(c, Err(TypeError), [])
  {
    var c := Client(0, Transport.New(), true);
    var ds := Dict([Entry("name", Str("ds"))]);
    assert !HasKey(ds.entries, "id");
    assert Get(ds, "id") == Ok(Nil);
    assert Marshal.MarshalFault(Str(q)).None? && Marshal.MarshalFault(Nil) == Some(TypeError);
    var params := [Str(q), Nil];
    assert params[0] == Str(q) && params[1] == Nil;
    assert !Marshal.MarshalFault(params[1]).None?;
    assert Marshal.ParamsFault(params) == Some(TypeError);
  }

  /** A None nested in a list or a dict argument raises the same TypeError as a bare one. */
  lemma NestedNoneIsTypeError(x: int)
    requires Marshal.MinInt <= x <= Marshal.MaxInt
    ensures Marshal.MarshalFault(List([Int(x), Nil])) == Some(TypeError)
    ensures Marshal.MarshalFault(Dict([Entry("a", Int(x)), Entry("b", Nil)])) == Some(TypeError)
  {
    var xs := [Int(x), Nil];
    assert xs[0] == Int(x) && xs[1] == Nil;
    var es := [Entry("a", Int(x)), Entry("b", Nil)];
    assert es[0].value == Int(x) && es[1].value == Nil && Wins(es, 1);
  }
}

=== FILE: status.dfy ===
/** The two job-status enumerations, one per phase of a job. */
module Status {

  datatype CompilerStatus = Waiting | Running | Finished | Error

  datatype ExecutionStatus = Waiting | Running | Finished | Error
}

=== FILE: transport.dfy ===
/**
 * The session-keeping XML-RPC transport (`CookiesTransport` in
 * boaapi/util.py): it remembers every cookie the endpoint sets and every
 * CSRF token the client hands it, and replays both on every request.
 */
module Transport {
  import opened Wrappers
  import opened Exceptions

  datatype Header = Header(name: string, value: string)

  /** The two append-only lists the transport owns. */
  datatype State = State(cookies: seq<string>, csrf: seq<string>)

  const CookieHeader := "Cookie"
  const CsrfHeader := "X-CSRF-Token"
  const SetCookieHeader := "Set-Cookie"
  const Separator := "; "

  /** A freshly constructed transport. */
  function New(): (t: State)
  {
    State([], [])
  }

  /** `add_csrf(token)`. */
  function AddCsrf(t: State, token: string): (r: State)
    ensures r.cookies == t.cookies
    ensures |r.csrf| == |t.csrf| + 1
    ensures r.csrf[..|t.csrf|] == t.csrf && r.csrf[|t.csrf|] == token
  {
    t.(csrf := t.csrf + [token])
  }

  /** Python's `sep.join(xs)`: the first piece leads the joined string. */
  function Join(xs: seq<string>, sep: string): (s: string)
    ensures |xs| > 0 ==> xs[0] <= s
  {
    if |xs| == 0 then ""
    else if |xs| == 1 then xs[0]
    else xs[0] + sep + Join(xs[1..], sep)
  }

  /**
   * `send_headers`: the Cookie and X-CSRF-Token lines go out, before the
   * standard ones, only while at least one cookie is held.
   */
  function SendHeaders(t: State, headers: seq<Header>): (r: seq<Header>)
    ensures |t.cookies| == 0 ==> r == headers
    ensures |t.cookies| > 0 ==>
      && |r| == |headers| + 2
      && r[0] == Header(CookieHeader, Join(t.cookies, Separator))
      && r[1] == Header(CsrfHeader, Join(t.csrf, Separator))
      && r[2..] == headers
  {
    if |t.cookies| > 0 then
      [Header(CookieHeader, Join(t.cookies, Separator)), Header(CsrfHeader, Join(t.csrf, Separator))] + headers
    else headers
  }

  function LowerChar(c: char): char
  {
    if 'A' <= c <= 'Z' then (c as int - 'A' as int + 'a' as int) as char else c
  }

  function Lower(s: string): (r: string)
    ensures |r| == |s|
  {
    seq(|s|, i requires 0 <= i < |s| => LowerChar(s[i]))
  }

  /** Header names compare case-insensitively (ASCII). */
  predicate SameName(a: string, b: string)
  {
    Lower(a) == Lower(b)
  }

  /** The values of all `name` headers, in the order they arrived. */
  function ValuesOf(headers: seq<Header>, name: string): (vs: seq<string>)
    ensures |vs| <= |headers|
    ensures |vs| == 0 <==> forall i :: 0 <= i < |headers| ==> !SameName(headers[i].name, name)
  {
    if |headers| == 0 then []
    else
      var rest := ValuesOf(headers[1..], name);
      assert forall i :: 1 <= i < |headers| ==> headers[1..][i - 1] == headers[i];
      if SameName(headers[0].name, name) then [headers[0].value] + rest else rest
  }

  /** `msg.get_all(name)`: None when no such header arrived. */
  function GetAll(headers: seq<Header>, name: string): (r: Option<seq<string>>)
    ensures r.None? <==> forall i :: 0 <= i < |headers| ==> !SameName(headers[i].name, name)
    ensures r.Some? ==> r.value == ValuesOf(headers, name) && |r.value| > 0
  {
    var vs := ValuesOf(headers, name);
    if |vs| == 0 then None else Some(vs)
  }

  /** A lone header contributes its value exactly when its name matches. */
  lemma ValuesOfSingle(h: Header, name: string)
    ensures ValuesOf([h], name) == (if SameName(h.name, name) then [h.value] else [])
  {
  }

  /**
   * The values found in two runs of headers are those of the first run
   * followed by those of the second: with `ValuesOfSingle`, every
   * matching header contributes its value once, in arrival order.
   */
  lemma {:induction false} ValuesOfAppend(a: seq<Header>, b: seq<Header>, name: string)
    ensures ValuesOf(a + b, name) == ValuesOf(a, name) + ValuesOf(b, name)
  {
    if |a| > 0 {
      assert (a + b)[0] == a[0];
      assert (a + b)[1..] == a[1..] + b;
      ValuesOfAppend(a[1..], b, name);
    } else {
      assert a + b == b;
    }
  }

  /** `header.split(";", 1)[0]`: everything before the first ';'. */
  function CookiePart(h: string): (c: string)
    ensures ';' !in c
    ensures |c| <= |h| && c == h[..|c|]
    ensures |c| < |h| ==> h[|c|] == ';'
  {
    if |h| == 0 || h[0] == ';' then ""
    else [h[0]] + CookiePart(h[1..])
  }

  /** The cookies a list of `Set-Cookie` values contributes. */
  function CookieParts(vs: seq<string>): (cs: seq<string>)
    ensures |cs| == |vs|
    ensures forall i :: 0 <= i < |vs| ==> cs[i] == CookiePart(vs[i])
  {
    seq(|vs|, i requires 0 <= i < |vs| => CookiePart(vs[i]))
  }

  /** `parse_response`: harvest every `Set-Cookie` value of a reply. */
  function ParseResponse(t: State, headers: seq<Header>): (r: State)
  {
    match GetAll(headers, SetCookieHeader)
    case None => t
    case Some(vs) => t.(cookies := t.cookies + CookieParts(vs))
  }

  /** No held cookie contains ';'. */
  predicate Clean(cookies: seq<string>)
  {
    forall i :: 0 <= i < |cookies| ==> ';' !in cookies[i]
  }

  /**
   * What a reply does to the transport: the held cookies stay, in place,
   * and one cookie per `Set-Cookie` header follows them in header order;
   * the CSRF list does not change.
   */
  lemma ParseResponseAppends(t: State, headers: seq<Header>)
    ensures var r := ParseResponse(t, headers);
      var vs := ValuesOf(headers, SetCookieHeader);
      && r.csrf == t.csrf
      && |r.cookies| == |t.cookies| + |vs|
      && r.cookies[..|t.cookies|] == t.cookies
      && (forall i :: 0 <= i < |vs| ==> r.cookies[|t.cookies| + i] == CookiePart(vs[i]))
      && (Clean(t.cookies) ==> Clean(r.cookies))
  {
    var r := ParseResponse(t, headers);
    var vs := ValuesOf(headers, SetCookieHeader);
    if |vs| > 0 {
      assert r.cookies == t.cookies + CookieParts(vs);
      forall i | 0 <= i < |r.cookies|
        ensures Clean(t.cookies) ==> ';' !in r.cookies[i]
      {
        if i >= |t.cookies| {
          assert r.cookies[i] == CookiePart(vs[i - |t.cookies|]);
        }
      }
    }
  }

  /** `s[j..j+2] == "; "`. */
  predicate SeparatorAt(s: string, j: int)
  {
    0 <= j && j + 1 < |s| && s[j] == ';' && s[j + 1] == ' '
  }

  /** The first separator at or after `from`, or |s| when there is none. */
  function FindSeparator(s: string, from: nat): (i: nat)
    requires from <= |s|
    ensures from <= i <= |s|
    ensures i < |s| ==> SeparatorAt(s, i)
    ensures forall j :: from <= j < i ==> !SeparatorAt(s, j)
    decreases |s| - from
  {
    if from == |s| then |s|
    else if SeparatorAt(s, from) then from
    else FindSeparator(s, from + 1)
  }

  /** Python's `s.split("; ")`: how a server reads back a Cookie header. */
  function SplitCookies(s: string): (parts: seq<string>)
    ensures |parts| > 0
    decreases |s|
  {
    var i := FindSeparator(s, 0);
    if i == |s| then [s] else [s[..i]] + SplitCookies(s[i + 2..])
  }

  lemma SplitAtFirstCookie(x: string, rest: string)
    requires ';' !in x
    ensures FindSeparator(x + Separator + rest, 0) == |x|
  {
    var s := x + Separator + rest;
    var i := FindSeparator(s, 0);
    assert SeparatorAt(s, |x|);
  }

  /**
   * The Cookie header decodes back to exactly the held cookies, in
   * order, as long as none of them contains ';'.
   */
  lemma {:induction false} JoinSplitRoundTrip(cookies: seq<string>)
    requires |cookies| > 0 && Clean(cookies)
    ensures SplitCookies(Join(cookies, Separator)) == cookies
    decreases |cookies|
  {
    if |cookies| > 1 {
      var x := cookies[0];
      var rest := Join(cookies[1..], Separator);
      var s := x + Separator + rest;
      assert Join(cookies, Separator) == s;
      SplitAtFirstCookie(x, rest);
      assert s[|x| + 2..] == rest;
      assert Clean(cookies[1..]) by {
        forall i | 0 <= i < |cookies[1..]| ensures ';' !in cookies[1..][i] {
          assert cookies[1..][i] == cookies[i + 1];
        }
      }
      JoinSplitRoundTrip(cookies[1..]);
      assert s[..|x|] == x;
      assert cookies == [x] + cookies[1..];
    }
  }

  /** What happens to a transport over one client's lifetime. */
  datatype Event =
    | AddToken(token: string)
    | Send(headers: seq<Header>)
    | Receive(headers: seq<Header>)

  /** The transport state and the header lists each Send emitted. */
  datatype Session = Session(transport: State, emitted: seq<seq<Header>>)

  function Apply(s: Session, e: Event): Session
  {
    match e
    case AddToken(token) => s.(transport := AddCsrf(s.transport, token))
    case Send(headers) => s.(emitted := s.emitted + [SendHeaders(s.transport, headers)])
    case Receive(headers) => s.(transport := ParseResponse(s.transport, headers))
  }

  /** Runs the events in order from `start`. */
  function Replay(start: Session, events: seq<Event>): Session
  {
    if |events| == 0 then start
    else Apply(Replay(start, events[..|events| - 1]), events[|events| - 1])
  }

  /** The cookies the Receive events delivered, in receipt order. */
  function Received(events: seq<Event>): seq<string>
  {
    if |events| == 0 then []
    else
      var e := events[|events| - 1];
      Received(events[..|events| - 1])
        + (if e.Receive? then CookieParts(ValuesOf(e.headers, SetCookieHeader)) else [])
  }

  /** The tokens the AddToken events handed over, in order. */
  function Tokens(events: seq<Event>): seq<string>
  {
    if |events| == 0 then []
    else
      var e := events[|events| - 1];
      Tokens(events[..|events| - 1]) + (if e.AddToken? then [e.token] else [])
  }

  /**
   * Starting fresh, the transport holds exactly the cookies received
   * and the tokens added, each in order: nothing is dropped, replaced or
   * deduplicated, and no held cookie contains ';'.
   */
  lemma {:induction false} ReplayAccumulates(events: seq<Event>)
    ensures Replay(Session(New(), []), events).transport == State(Received(events), Tokens(events))
    ensures Clean(Received(events))
  {
    if |events| > 0 {
      var front := events[..|events| - 1];
      ReplayAccumulates(front);
      var e := events[|events| - 1];
      if e.Receive? {
        ParseResponseAppends(Replay(Session(New(), []), front).transport, e.headers);
      }
    }
  }

  /**
   * Once at least one cookie has been received, the next request
   * carries a Cookie header that decodes to every cookie received so
   * far in receipt order, and an X-CSRF-Token header joining every token
   * added; before that it carries neither.
   */
  lemma NextRequestCarriesSession(events: seq<Event>, headers: seq<Header>)
    ensures var s := Replay(Session(New(), []), events + [Send(headers)]);
      var out := s.emitted[|s.emitted| - 1];
      && (|Received(events)| == 0 ==> out == headers)
      && (|Received(events)| > 0 ==>
            && |out| == |headers| + 2
            && out[0].name == CookieHeader
            && SplitCookies(out[0].value) == Received(events)
            && out[1] == Header(CsrfHeader, Join(Tokens(events), Separator))
            && out[2..] == headers)
  {
    var all := events + [Send(headers)];
    assert all[..|all| - 1] == events;
    ReplayAccumulates(events);
    if |Received(events)| > 0 {
      JoinSplitRoundTrip(Received(events));
    }
  }

  /** A fresh transport adds nothing to a request. */
  lemma FreshSendsNothing(headers: seq<Header>)
    ensures SendHeaders(New(), headers) == headers
  {
  }

  /**
   * Tokens alone never produce headers: after any number of add_csrf
   * calls on a transport with no cookies the request goes out as is.
   */
  lemma TokensWithoutCookiesStaySilent(t: State, tokens: seq<string>, headers: seq<Header>)
    requires |t.cookies| == 0
    ensures SendHeaders(State(t.cookies, t.csrf + tokens), headers) == headers
  {
  }
}

=== FILE: util.dfy ===
/** `parse_job` of boaapi/util.py: a server job record becomes a handle. */
module Util {
  import opened Exceptions
  import opened Values
  import opened JobHandles

  /**
   * The record keys `parse_job` reads, in the order it reads them (the
   * order of the constructor's arguments): id, date, dataset, compiler
   * status, execution status. The execution status is read from
   * "hadoop_status".
   */
  const JobKeys: seq<string> := ["id", "submitted", "input", "compiler_status", "hadoop_status"]

  /** Every key `parse_job` reads is present in the record. */
  predicate Complete(job: Value)
  {
    job.Dict? && forall i :: 0 <= i < |JobKeys| ==> HasKey(job.entries, JobKeys[i])
  }

  /** The value a complete record holds under `JobKeys[i]`. */
  function Field(job: Value, i: nat): Value
    requires Complete(job) && i < |JobKeys|
  {
    Lookup(job.entries, JobKeys[i]).value
  }

  /**
   * The first key of `JobKeys` the record lacks, which is the key of the
   * KeyError the constructor call raises.
   */
  predicate FirstMissing(job: Value, i: nat)
    requires job.Dict?
  {
    && i < |JobKeys|
    && !HasKey(job.entries, JobKeys[i])
    && forall j :: 0 <= j < i ==> HasKey(job.entries, JobKeys[j])
  }

  /**
   * `parse_job(client, job)`: the constructor's arguments are read from
   * the record in order, and the first read that fails raises.
   */
  function ParseJob(client: ClientRef, job: Value): Result<JobHandle>
  {
    var id :- Subscript(job, "id");
    var date :- Subscript(job, "submitted");
    var dataset :- Subscript(job, "input");
    var compilerStatus :- Subscript(job, "compiler_status");
    var execStatus :- Subscript(job, "hadoop_status");
    Ok(JobHandle(client, id, date, dataset, compilerStatus, execStatus))
  }

  /**
   * What `parse_job` promises: the handle's id, date, dataset, compiler
   * status and execution status are the record's id, submitted, input,
   * compiler_status and hadoop_status values, stored raw, with the
   * given client; a record lacking any of those keys raises KeyError
   * naming the first one missing, and a reply that is not a dict raises
   * TypeError.
   */
  lemma ParseJobSpec(client: ClientRef, job: Value)
    ensures var r := ParseJob(client, job);
      && (r.Ok? <==> Complete(job))
      && (r.Ok? ==>
            && r.value.client == client
            && r.value.id == Field(job, 0)
            && r.value.date == Field(job, 1)
            && r.value.dataset == Field(job, 2)
            && r.value.compilerStatus == Field(job, 3)
            && r.value.execStatus == Field(job, 4))
      && (!job.Dict? ==> r == Err(TypeError))
      && (job.Dict? && r.Err? ==>
            exists i: nat :: FirstMissing(job, i) && r.error == KeyError(StrKey(JobKeys[i])))
  {
    assert JobKeys[0] == "id" && JobKeys[1] == "submitted" && JobKeys[2] == "input";
    assert JobKeys[3] == "compiler_status" && JobKeys[4] == "hadoop_status";
    if job.Dict? {
      var es := job.entries;
      if !HasKey(es, "id") {
        assert FirstMissing(job, 0);
      } else if !HasKey(es, "submitted") {
        assert FirstMissing(job, 1);
      } else if !HasKey(es, "input") {
        assert FirstMissing(job, 2);
      } else if !HasKey(es, "compiler_status") {
        assert FirstMissing(job, 3);
      } else if !HasKey(es, "hadoop_status") {
        assert FirstMissing(job, 4);
      }
    }
  }
}

=== FILE: values.dfy ===
/**
 * The Python values that cross the XML-RPC boundary or sit in a job
 * handle's fields, and the few operations of the Python runtime the
 * client applies to them: `==`, `d[key]`, `d.get(key)`, `v[n]`,
 * iteration and `int(v)`.
 */
module Values {
  import opened Wrappers
  import opened Exceptions
  import Status

  /**
   * Dictionaries keep the entry list the XML-RPC decoder saw; when a key
   * repeats, the later entry wins, as in the decoder's `d[k] = v` loop.
   */
  datatype Value =
    | Nil
    | Bool(b: bool)
    | Int(i: int)
    | Str(s: string)
    | List(items: seq<Value>)
    | Dict(entries: seq<Entry>)
    | Compiler(compiler: Status.CompilerStatus)
    | Execution(execution: Status.ExecutionStatus)

  datatype Entry = Entry(key: string, value: Value)

  /** Index i holds the entry that a dict built from `es` keeps for its key. */
  predicate Wins(es: seq<Entry>, i: int)
    requires 0 <= i < |es|
  {
    forall j :: i < j < |es| ==> es[j].key != es[i].key
  }

  predicate HasKey(es: seq<Entry>, k: string)
  {
    exists i :: 0 <= i < |es| && es[i].key == k
  }

  /** `d[k]` for the dict decoded from `es`: the last entry with key k. */
  function Lookup(es: seq<Entry>, k: string): (r: Option<Value>)
    ensures r.None? <==> !HasKey(es, k)
    ensures r.Some? ==>
      exists i :: 0 <= i < |es| && es[i].key == k && es[i].value == r.value && Wins(es, i)
  {
    if |es| == 0 then None
    else if es[|es| - 1].key == k then Some(es[|es| - 1].value)
    else
      var r := Lookup(es[..|es| - 1], k);
      assert forall i :: 0 <= i < |es| - 1 ==> es[..|es| - 1][i] == es[i];
      r
  }

  function BoolToInt(b: bool): int
  {
    if b then 1 else 0
  }

  /**
   * Python's `==`. `bool` is a subtype of `int`, so True == 1 and
   * False == 0; enum members are equal only to themselves; lists compare
   * element-wise and dicts key-wise.
   */
  predicate PyEq(a: Value, b: Value)
    decreases a
  {
    match (a, b)
    case (Nil, Nil) => true
    case (Bool(x), Bool(y)) => x == y
    case (Bool(x), Int(j)) => BoolToInt(x) == j
    case (Int(i), Bool(y)) => i == BoolToInt(y)
    case (Int(i), Int(j)) => i == j
    case (Str(s), Str(t)) => s == t
    case (List(xs), List(ys)) =>
      |xs| == |ys| && forall i :: 0 <= i < |xs| ==> PyEq(xs[i], ys[i])
    case (Dict(es), Dict(fs)) =>
      && (forall i :: 0 <= i < |es| ==> HasKey(fs, es[i].key))
      && (forall j :: 0 <= j < |fs| ==> HasKey(es, fs[j].key))
      && (forall i, j ::
            (0 <= i < |es| && 0 <= j < |fs| && es[i].key == fs[j].key && Wins(es, i) && Wins(fs, j))
            ==> PyEq(es[i].value, fs[j].value))
    case (Compiler(x), Compiler(y)) => x == y
    case (Execution(x), Execution(y)) => x == y
    case _ => false
  }

  /** `v[k]` with a string key: only a dict can be indexed by a string. */
  function Subscript(v: Value, k: string): (r: Result<Value>)
    ensures r.Ok? <==> v.Dict? && HasKey(v.entries, k)
    ensures r.Ok? ==> Lookup(v.entries, k) == Some(r.value)
    ensures r.Err? ==> r.error == (if v.Dict? then KeyError(StrKey(k)) else TypeError)
  {
    match v
    case Dict(es) =>
      (match Lookup(es, k)
       case Some(x) => Ok(x)
       case None => Err(KeyError(StrKey(k))))
    case _ => Err(TypeError)
  }

  /** `v.get(k)`: a dict answers None for a missing key; nothing else has `get`. */
  function Get(v: Value, k: string): (r: Result<Value>)
    ensures r.Ok? <==> v.Dict?
    ensures r.Ok? && HasKey(v.entries, k) ==> Lookup(v.entries, k) == Some(r.value)
    ensures r.Ok? && !HasKey(v.entries, k) ==> r.value == Nil
    ensures r.Err? ==> r.error == AttributeError("get")
  {
    match v
    case Dict(es) =>
      (match Lookup(es, k)
       case Some(x) => Ok(x)
       case None => Ok(Nil))
    case _ => Err(AttributeError("get"))
  }

  /** `v[n]` for a non-negative integer n. */
  function Index(v: Value, n: nat): (r: Result<Value>)
    ensures v.List? && n < |v.items| ==> r == Ok(v.items[n])
    ensures v.Str? && n < |v.s| ==> r == Ok(Str([v.s[n]]))
    ensures r.Ok? ==> (v.List? && n < |v.items|) || (v.Str? && n < |v.s|)
    ensures (v.List? || v.Str?) && r.Err? ==> r.error == IndexError
    ensures v.Dict? ==> r == Err(KeyError(IntKey(n)))
    ensures !(v.List? || v.Str? || v.Dict?) ==> r == Err(TypeError)
  {
    match v
    case List(xs) => if n < |xs| then Ok(xs[n]) else Err(IndexError)
    case Str(s) => if n < |s| then Ok(Str([s[n]])) else Err(IndexError)
    case Dict(_) => Err(KeyError(IntKey(n)))
    case _ => Err(TypeError)
  }

  /** The distinct keys of a dict, in first-insertion order. */
  function Keys(es: seq<Entry>): (r: seq<string>)
    ensures forall k :: k in r <==> HasKey(es, k)
    ensures |r| == 0 <==> |es| == 0
    ensures forall i, j :: 0 <= i < j < |r| ==> r[i] != r[j]
  {
    if |es| == 0 then []
    else
      var front := es[..|es| - 1];
      var p := Keys(front);
      assert forall i :: 0 <= i < |front| ==> front[i] == es[i];
      assert HasKey(es, es[|es| - 1].key);
      if es[|es| - 1].key in p then p else p + [es[|es| - 1].key]
  }

  /** What `for x in v` visits: list items, one-character strings, dict keys. */
  function Iterate(v: Value): (r: Result<seq<Value>>)
    ensures v.List? ==> r == Ok(v.items)
    ensures r.Ok? <==> v.List? || v.Str? || v.Dict?
    ensures r.Err? ==> r.error == TypeError
    ensures v.Str? ==>
      && r.Ok? && |r.value| == |v.s|
      && forall i :: 0 <= i < |v.s| ==> r.value[i] == Str([v.s[i]])
    ensures v.Dict? ==>
      && r.Ok? && |r.value| == |Keys(v.entries)|
      && forall i :: 0 <= i < |r.value| ==> r.value[i] == Str(Keys(v.entries)[i])
    ensures r.Ok? && !v.List? ==> forall x :: x in r.value ==> x.Str?
  {
    match v
    case List(xs) => Ok(xs)
    case Str(s) => Ok(seq(|s|, i requires 0 <= i < |s| => Str([s[i]])))
    case Dict(es) =>
      var ks := Keys(es);
      Ok(seq(|ks|, i requires 0 <= i < |ks| => Str(ks[i])))
    case _ => Err(TypeError)
  }

  predicate IsDigit(c: char)
  {
    '0' <= c <= '9'
  }

  /** The value of a run of decimal digits (0 for the empty run). */
  function DigitsValue(s: string): (n: nat)
    requires forall i :: 0 <= i < |s| ==> IsDigit(s[i])
  {
    if |s| == 0 then 0
    else
      assert IsDigit(s[|s| - 1]);
      10 * DigitsValue(s[..|s| - 1]) + (s[|s| - 1] as int - '0' as int)
  }

  predicate IsDigits(s: string)
  {
    |s| > 0 && forall i :: 0 <= i < |s| ==> IsDigit(s[i])
  }

  /** A decimal numeral `int()` accepts: digits, optionally after one sign. */
  predicate IsNumeral(s: string)
  {
    IsDigits(s) || (|s| > 1 && (s[0] == '-' || s[0] == '+') && IsDigits(s[1..]))
  }

  /** `int(v)`: ints and bools convert, a signed decimal string parses. */
  function IntOf(v: Value): (r: Result<int>)
    ensures v.Int? ==> r == Ok(v.i)
    ensures v.Bool? ==> r == Ok(BoolToInt(v.b))
    ensures v.Str? ==> (r.Ok? <==> IsNumeral(v.s))
    ensures v.Str? && IsDigits(v.s) ==> r == Ok(DigitsValue(v.s))
    ensures v.Str? && |v.s| > 1 && v.s[0] == '+' && IsDigits(v.s[1..]) ==> r == Ok(DigitsValue(v.s[1..]))
    ensures v.Str? && |v.s| > 1 && v.s[0] == '-' && IsDigits(v.s[1..]) ==> r == Ok(0 - DigitsValue(v.s[1..]) as int)
    ensures v.Str? && r.Err? ==> r.error == ValueError
    ensures !(v.Int? || v.Bool? || v.Str?) ==> r == Err(TypeError)
  {
    match v
    case Int(i) => Ok(i)
    case Bool(b) => Ok(BoolToInt(b))
    case Str(s) =>
      if IsDigits(s) then Ok(DigitsValue(s))
      else if |s| > 1 && s[0] == '-' && IsDigits(s[1..]) then Ok(0 - DigitsValue(s[1..]) as int)
      else if |s| > 1 && s[0] == '+' && IsDigits(s[1..]) then Ok(DigitsValue(s[1..]))
      else Err(ValueError)
    case _ => Err(TypeError)
  }

  /** The decimal rendering `str(n)` of a natural number. */
  function Decimal(n: nat): (s: string)
    ensures IsDigits(s)
  {
    if n < 10 then [('0' as int + n) as char]
    else Decimal(n / 10) + [('0' as int + n % 10) as char]
  }

  /** `int(str(n)) == n`: the parse inverts the decimal rendering. */
  lemma {:induction false} DecimalRoundTrip(n: nat)
    ensures IntOf(Str(Decimal(n))) == Ok(n)
  {
    DigitsOfDecimal(n);
  }

  lemma {:induction false} DigitsOfDecimal(n: nat)
    ensures DigitsValue(Decimal(n)) == n
  {
    if n >= 10 {
      var s := Decimal(n);
      var front := Decimal(n / 10);
      assert s[..|s| - 1] == front;
      DigitsOfDecimal(n / 10);
    }
  }

  /** Python `==` agrees with structural equality on strings. */
  lemma PyEqStrings(s: string, t: string)
    ensures PyEq(Str(s), Str(t)) <==> s == t
  {
  }

  /** `x == 1` holds exactly of the integer 1 and of True. */
  lemma PyEqOne(v: Value)
    ensures PyEq(v, Int(1)) <==> v == Int(1) || v == Bool(true)
  {
  }

  /** An enum member is `==` only to itself, never to its wire string. */
  lemma {:induction false} PyEqExecution(v: Value, e: Status.ExecutionStatus)
    ensures PyEq(v, Execution(e)) <==> v == Execution(e)
  {
  }
}

=== FILE: wrappers.dfy ===
/** The optional-value wrapper the model shares across modules. */
module Wrappers {

  /** Python's `None`-or-value, used where the library returns `None`. */
  datatype Option<+T> = None | Some(value: T)
}
